=== FILE: README.md ===
# Consignment & travel storefront: the rules behind the screens

This project models, in Dafny, the small pieces of logic inside a React
storefront / travel-booking demo. Each piece is a deterministic function of
explicit state: a list of mock records, a wizard step, or an optional user.

- **Booking management**: search plus status filter, cancel by id, edit of
  contact details, and the rule that only confirmed bookings offer Edit and
  Cancel.
- **Consignment marketplace**: item search plus category filter, and the
  favourites toggle.
- **Flight search**: the sort comparator (price / duration / rating) and the
  stops label.
- **Flight tracker**: search, and one auto-refresh tick. The random draws
  are passed in as parameters.
- **Travel insurance**: the three-step purchase wizard, the purchase total,
  and claim filing with generated ids and policy numbers.
- **Shopping cart panel**: the three-step checkout, Back/Close, quantity
  requests and line subtotals. The cart store is abstract: the panel only
  issues requests to it.
- **Checkout modal**: the details → payment stage, and the success and
  error handlers.
- **Auth modal and session store**: login/register dispatch, the mode
  switch, close-on-success, and the session's user, loading flag and
  logout.
- **Map**: the city → coordinates table with its fallback.

Modules follow the source files: `BookingManagement`, `Consignment`,
`FlightSection`, `FlightTracker`, `TravelInsurance`, `ShoppingCart`,
`CheckoutModal`, `AuthModal`, `UserSession`, `MapView`. Three small helper
modules are shared: `Maybe` (optional values), `Text` (ASCII lower-casing,
`includes`, decimal rendering) and `Seqs` (`filter`, order-preserving
sub-lists).

Modelling conventions:

- A JavaScript `number` that holds money, progress or coordinates is a
  `real`. Counts are `int` or `nat`.
- UI handlers are pure step functions over immutable state.
- A call to a parent callback or to the cart store is returned as a value:
  an `Effect` or a `CartRequest`.
- A button that is not drawn in some state is modelled as an event that
  changes nothing in that state. There are two exceptions, both harmless
  over-approximations:
  - The auth modal's mode switch also acts on a closed modal, which the
    source does not draw at all.
  - Choosing a policy restarts the insurance wizard even while it is
    open, although its overlay then covers the policy cards' Purchase
    buttons.

## Model

| member | source | states |
|---|---|---|
| Text.Includes | src/components/BookingManagement.tsx:101-104 | `includes` holds exactly when the needle occurs as a contiguous block of the text |
| Text.Lower | src/components/BookingManagement.tsx:101 | `toLowerCase` keeps the length and lower-cases each ASCII letter in place, leaving other characters alone |
| Text.IncludesIgnoringCase | src/components/BookingManagement.tsx:101-104 | the lower-cased search matches iff the term lies over some block of the text, character for character up to letter case |
| Text.IncludesIgnoringCaseEmpty | src/components/BookingManagement.tsx:101 | every text matches the empty search term, whatever its case |
| Text.NatToString | src/components/TravelInsurance.tsx:213 | a number rendered with `toString` is a non-empty run of decimal digits without a leading zero |
| Text.ParseNatToString | src/components/TravelInsurance.tsx:213 | the decimal rendering of a number reads back as the same number |
| Text.NatToStringInjective | src/components/TravelInsurance.tsx:213 | distinct numbers render as distinct decimal strings |
| Seqs.Filter | src/components/BookingManagement.tsx:99 | `filter` keeps exactly the elements satisfying the predicate, in their original order (a sub-list of the input) |
| Seqs.FilterMultiplicity | src/components/ConsignmentSection.tsx:106 | each occurrence is judged on its own: every copy of a matching value is kept and no copy of any other |
| Seqs.FilterAppend | src/components/ConsignmentSection.tsx:115-117 | filtering a concatenation is the concatenation of the filtered parts (used to take a just-added favourite back out) |
| Seqs.FilterAll | src/components/BookingManagement.tsx:99-106 | a filter whose predicate holds everywhere returns its input unchanged |
| BookingManagement.FilteredBookings | src/components/BookingManagement.tsx:99-106 | a booking is listed iff the status filter is 'all' or equals its status, and the lower-cased term occurs in its reference, airline, from or to; the listing keeps list order; 'all' with an empty term lists every booking |
| BookingManagement.CancelBooking | src/components/BookingManagement.tsx:108-113 | same length and ids; the booking with the given id becomes cancelled with all other fields kept; every other booking is identical |
| BookingManagement.CancelIdempotent | src/components/BookingManagement.tsx:109-112 | cancelling the same id twice equals cancelling it once |
| BookingManagement.CancelAbsentIsNoOp | src/components/BookingManagement.tsx:109-112 | cancelling an id no booking has returns the list unchanged |
| BookingManagement.EditBooking | src/components/BookingManagement.tsx:118-121 | same length and ids; bookings with the updated record's id are replaced by it; all others are unchanged |
| BookingManagement.EditForm | src/components/BookingManagement.tsx:359-364 | the saved record is the selected booking with only passenger name, email and phone replaced |
| BookingManagement.EditUnchangedIsNoOp | src/components/BookingManagement.tsx:356-366 | saving the edit form with the booking's own contact details leaves the list as it was, given unique ids |
| BookingManagement.Step | src/components/BookingManagement.tsx:297-456 | one user action: typing a search or choosing a filter sets exactly that and changes nothing else; Edit or Cancel on a listed confirmed booking opens that modal for it and changes nothing else, and on any other booking does nothing; the list changes only through the open modal's save (edit by id, with the form applied) or confirm (cancel by id), which closes the modal; closing a modal changes no booking; the list keeps its length |
| BookingManagement.StepKeepsSettledBookings | src/components/BookingManagement.tsx:297-321 | Edit and Cancel act only on a listed confirmed booking, so no step changes a booking that is not confirmed; ids stay unique and the length is kept |
| BookingManagement.RunKeepsSettledBookings | src/components/BookingManagement.tsx:297-321 | over any sequence of user actions, bookings that are cancelled or completed never change |
| BookingManagement.InitialValid | src/components/BookingManagement.tsx:30-97 | the mock bookings have unique ids, and the initial view ('all', empty search) lists them all |
| BookingManagement.CompletedBookingStaysCompleted | src/components/BookingManagement.tsx:84 | the completed mock booking stays exactly as it is whatever the user does |
| Consignment.FilteredItems | src/components/ConsignmentSection.tsx:106-111 | an item is shown iff its title or description contains the term, ignoring case, and the category is 'All' or equals the item's; the result is an order-preserving sub-list; an empty term with 'All' shows every item |
| Consignment.ToggleFavorite | src/components/ConsignmentSection.tsx:113-118 | toggling flips whether the id is a favourite and leaves the membership of every other id unchanged |
| Consignment.ToggleKeepsNoDuplicates | src/components/ConsignmentSection.tsx:115-117 | toggling keeps a duplicate-free favourites list duplicate-free |
| Consignment.FilterKeepsNoDuplicates | src/components/ConsignmentSection.tsx:116 | removing an id from a duplicate-free list leaves it duplicate-free |
| Consignment.ToggleTwiceRestores | src/components/ConsignmentSection.tsx:115-117 | favouriting an absent id and then toggling it again returns exactly the original list |
| Consignment.FavoritesNeverDuplicate | src/components/ConsignmentSection.tsx:102 | starting from the empty list, no sequence of clicks creates a duplicate favourite |
| Consignment.ToggleAllKeepsNoDuplicates | src/components/ConsignmentSection.tsx:113-118 | any sequence of toggles keeps a duplicate-free list duplicate-free |
| Consignment.FavoriteIffOddClicks | src/components/ConsignmentSection.tsx:102-118 | after any clicks from the empty list, an item is a favourite iff it was clicked an odd number of times |
| Consignment.ToggleAllParity | src/components/ConsignmentSection.tsx:113-118 | after a sequence of toggles, membership equals initial membership flipped once per click on that id |
| FlightSection.LocaleCompare | src/components/FlightSection.tsx:98 | the string comparison is non-positive iff the first string sorts first, and zero iff the strings are equal |
| FlightSection.LexLeReflexive | src/components/FlightSection.tsx:98 | every string sorts before-or-equal to itself |
| FlightSection.LexLeTotal | src/components/FlightSection.tsx:98 | of any two strings, one sorts before-or-equal to the other |
| FlightSection.LexLeTransitive | src/components/FlightSection.tsx:98 | the string order is transitive |
| FlightSection.LexLeAntisymmetric | src/components/FlightSection.tsx:98 | two durations each sorting before-or-equal to the other are the same text |
| FlightSection.Comparator | src/components/FlightSection.tsx:96-101 | the comparator handed to `sort`; its meaning for each key is stated by ComparatorSign and ComparatorAntisymmetric |
| FlightSection.ComparatorSign | src/components/FlightSection.tsx:96-101 | the comparator lets `a` stay ahead of `b` iff a is no dearer (price), its duration text sorts no later (duration), or it is rated no lower (rating); it is 0 for every other key |
| FlightSection.ComparatorAntisymmetric | src/components/FlightSection.tsx:96-101 | swapping the two flights negates the comparator, for every key |
| FlightSection.InOrderTotal | src/components/FlightSection.tsx:96-101 | for every sort key, the comparator puts any two flights in some order |
| FlightSection.InOrderTransitive | src/components/FlightSection.tsx:96-101 | for every sort key, the comparator's order is transitive |
| FlightSection.Insert | src/components/FlightSection.tsx:96-101 | inserting into a sorted list gives a sorted list holding one more copy of the flight |
| FlightSection.SortFlights | src/components/FlightSection.tsx:96-101 | the result is a permutation of the source flights (same length) and is sorted by the comparator |
| FlightSection.SortByPriceAscending | src/components/FlightSection.tsx:97 | sorted by 'price', prices never decrease |
| FlightSection.SortByRatingDescending | src/components/FlightSection.tsx:99 | sorted by 'rating', ratings never increase |
| FlightSection.SortByDurationAscending | src/components/FlightSection.tsx:98 | sorted by 'duration', the duration texts are in string order |
| FlightSection.SortByUnknownKeyKeepsOrder | src/components/FlightSection.tsx:100 | any other key compares all flights equal, and the stable sort returns the list unchanged |
| FlightSection.StopsLabelCases | src/components/FlightSection.tsx:265 | 0 stops reads 'Direct', 1 reads '1 stop', and n > 1 reads 'n stops' |
| FlightSection.StopsLabel | src/components/FlightSection.tsx:265 | only a direct flight reads 'Direct'; any other label opens with the stop count in decimal followed by a space, and that count reads back as the number of stops |
| FlightSection.StopsLabelInjective | src/components/FlightSection.tsx:265 | different stop counts never get the same label |
| FlightSection.SortFourByPrice | src/components/FlightSection.tsx:97 | four flights with distinct prices come out of the price sort cheapest first |
| FlightSection.MockFlightsByPrice | src/components/FlightSection.tsx:19-101 | the mock results sorted by price read Southwest, United, American, Delta |
| FlightTracker.FilteredFlights | src/components/FlightTracker.tsx:168-173 | a flight is listed iff the lower-cased term occurs in its flight number, airline, from or to; list order is kept; the empty term lists every flight |
| FlightTracker.InitialSearchTerm | src/components/FlightTracker.tsx:109 | the search box starts with the `flightNumber` prop when given, and empty otherwise |
| FlightTracker.OpenedWithoutFlightNumberShowsAll | src/components/FlightTracker.tsx:109 | with no flightNumber prop the search starts empty and every flight is listed |
| FlightTracker.OpenedWithFlightNumberShowsMatches | src/components/FlightTracker.tsx:109 | with a flightNumber prop the search starts at it, and exactly the flights mentioning it are listed |
| FlightTracker.Nudge | src/components/FlightTracker.tsx:123-130 | an updated altitude or speed is always present and never negative: a present, nonzero reading moves by the drawn delta, and becomes exactly 0 when that would go below 0; a reading that is absent or exactly 0 (falsy) becomes 0 |
| FlightTracker.RemainingTime | src/components/FlightTracker.tsx:131 | the label is a decimal count without a leading zero, followed by 'm'; it is '0m' from 100 on, and below 100 the count reads back as twice the missing percentage, rounded down |
| FlightTracker.RemainingTimeZero | src/components/FlightTracker.tsx:131 | for progress up to 100, the remaining-time label is '0m' iff progress exceeds 99.5, so in particular at 100 |
| FlightTracker.UpdateFlight | src/components/FlightTracker.tsx:120-134 | a flight that is not in flight, or has reached 100, is returned unchanged; otherwise progress advances by the drawn step, or becomes exactly 100 when the step would overshoot, so it never decreases; altitude and speed are the old readings nudged by their drawn deltas (present and non-negative); the remaining time is relabelled from the new progress; no other field changes |
| FlightTracker.Tick | src/components/FlightTracker.tsx:118-135 | a refresh updates each flight with its own draw, in place: length, order, ids and statuses are kept; flights that are not moving stay identical; no progress decreases and moving flights stay ≤ 100 |
| FlightTracker.TickKeepsProgressInRange | src/components/FlightTracker.tsx:122 | if every progress is in [0, 100] before a refresh, it still is after |
| FlightTracker.CompletedFlightIsFrozen | src/components/FlightTracker.tsx:121 | once an update brings progress to 100, a moving flight reads '0m' and any later refresh leaves it alone |
| TravelInsurance.ChooseTravelers | src/components/TravelInsurance.tsx:585-591 | picking from the travelers select sets a count in 1..6 and changes nothing else |
| TravelInsurance.PurchaseTotal | src/components/TravelInsurance.tsx:772 | for one traveler the total is the policy price, and with more travelers it is never below it |
| TravelInsurance.PurchaseTotalPerTraveler | src/components/TravelInsurance.tsx:772 | the total starts at the policy price, each extra traveler adds the price once, and a chosen count gives between 1× and 6× the price |
| TravelInsurance.WizardStep | src/components/TravelInsurance.tsx:193-208 | every wizard event keeps the step within 1..3 |
| TravelInsurance.WizardStepAlwaysInRange | src/components/TravelInsurance.tsx:199-208 | from any step in 1..3, over any sequence of events, the step stays within 1..3 |
| TravelInsurance.FreshWizardStaysInRange | src/components/TravelInsurance.tsx:143-208 | from the page's initial wizard (closed, step 1), the step stays within 1..3 over any sequence of events |
| TravelInsurance.PurchaseRestartsWizard | src/components/TravelInsurance.tsx:193-197 | choosing a policy always reopens the wizard at step 1 with that policy |
| TravelInsurance.ThreeSubmitsComplete | src/components/TravelInsurance.tsx:199-208 | after choosing a policy, two submits reach step 3 and a third closes the modal with the step reset to 1 |
| TravelInsurance.BackUndoesSubmit | src/components/TravelInsurance.tsx:781-784 | Back after an advancing submit returns to the same wizard state |
| TravelInsurance.FileClaim | src/components/TravelInsurance.tsx:210-224 | filing appends exactly one claim and keeps the existing claims as a prefix; the new claim has id n+1, policy number TI-2024-00(1237+n), status pending, no documents, the form's type, whole-dollar amount and description, and the given date; the form is reset and the claim modal closes |
| TravelInsurance.PolicyNumber | src/components/TravelInsurance.tsx:214 | a policy number is the prefix TI-2024-00 followed by the serial in decimal without a leading zero, which reads back as the serial |
| TravelInsurance.MockClaimsWellNumbered | src/components/TravelInsurance.tsx:108-139 | the seed claims have ids '1'..'3' and policy serials 1234..1236 |
| TravelInsurance.SeedNumber | src/components/TravelInsurance.tsx:110-131 | the seed id and policy number at each of the three positions are the decimal strings they spell |
| TravelInsurance.FileClaimKeepsNumbering | src/components/TravelInsurance.tsx:213-214 | filing keeps every claim's id equal to its position + 1 and its policy number determined by its position |
| TravelInsurance.FileAllKeepsNumbering | src/components/TravelInsurance.tsx:222 | any sequence of filings keeps that numbering |
| TravelInsurance.ClaimIdsAndPolicyNumbersUnique | src/components/TravelInsurance.tsx:108-139 | from the seed claims, ids stay exactly '1'..'n', and no two claims share an id or a policy number |
| TravelInsurance.FirstFiledClaimNumbers | src/components/TravelInsurance.tsx:213-214 | the first claim filed after the seeds gets id '4' and policy number TI-2024-001240 |
| ShoppingCart.LineSubtotalPerUnit | src/components/ShoppingCart.tsx:295-302 | the plus button requests, for the same item, a quantity whose line subtotal is one unit price higher; the minus button one whose subtotal is one unit price lower |
| ShoppingCart.LineSubtotal | src/components/ShoppingCart.tsx:73 | a line of no units costs nothing, a line of one unit costs the unit price, and no line with a non-negative price and quantity costs less than nothing |
| ShoppingCart.PanelStep | src/components/ShoppingCart.tsx:22-32 | every panel event keeps the checkout step within 1..3; once the panel has closed, nothing happens |
| ShoppingCart.SubmitAdvancesOneStep | src/components/ShoppingCart.tsx:24-25 | submitting below step 3 moves on exactly one step and sends no request to the cart |
| ShoppingCart.FinishingClearsAndCloses | src/components/ShoppingCart.tsx:226-243 | at step 3 the Close button clears the cart and closes the panel; step 3 draws no submit button, so a submit there changes nothing |
| ShoppingCart.OnlyClearOrFinishClears | src/components/ShoppingCart.tsx:234-243 | the cart is cleared only by Clear Cart or by the Close button at step 3 |
| ShoppingCart.BackOnlyFromStepTwo | src/components/ShoppingCart.tsx:217-220 | Back sends no request and changes the step only from step 2, to step 1 |
| ShoppingCart.LeaveAndReturnResumes | src/components/ShoppingCart.tsx:39 | leaving the checkout overlay and proceeding again gives back the same panel state, step included |
| ShoppingCart.QuantityButtons | src/components/ShoppingCart.tsx:295-302 | the minus and plus buttons request quantity − 1 and quantity + 1 for the same item id, and leave the panel as it was |
| ShoppingCart.PanelStepAlwaysInRange | src/components/ShoppingCart.tsx:22-32 | from any step in 1..3, over any sequence of events, the checkout step stays within 1..3 |
| ShoppingCart.FreshPanelStaysInRange | src/components/ShoppingCart.tsx:11-12 | the panel opens at step 1 with the checkout hidden, and its step stays within 1..3 over any sequence of events |
| CheckoutModal.ModalStep | src/components/CheckoutModal.tsx:34-49 | the payment stage is never left; the details stage moves to payment only on a submit, and a submit moves it there iff name and email are both non-empty |
| CheckoutModal.PhoneIsOptional | src/components/CheckoutModal.tsx:36 | the phone number never affects whether payment is reached |
| CheckoutModal.PaymentStageIsFinal | src/components/CheckoutModal.tsx:30-37 | over any sequence of events, a modal in the payment stage stays there |
| CheckoutModal.SuccessNotifiesThenCloses | src/components/CheckoutModal.tsx:41-44 | a successful payment calls the success callback first and the close callback second |
| CheckoutModal.ErrorKeepsModal | src/components/CheckoutModal.tsx:46-49 | a payment error neither closes the modal nor changes its stage or details |
| CheckoutModal.DetailsThenSubmitReachesPayment | src/components/CheckoutModal.tsx:25-38 | entering a name and an email then submitting reaches the payment stage, whatever the phone |
| CheckoutModal.PaymentNeedsCompleteSubmit | src/components/CheckoutModal.tsx:34-39 | a run that starts on the details form and ends on payment contains a submit made while name and email were both filled in |
| UserSession.SignedInUser | src/contexts/UserContext.tsx:37-42 | a completed call signs in id '1' with the given email; login uses the name 'Kalu Iroegbu', register the given name |
| UserSession.InitialSessionIsAnonymous | src/contexts/UserContext.tsx:29-30 | the store starts with no user and not loading |
| UserSession.Begin | src/contexts/UserContext.tsx:33 | starting a call raises the loading flag and leaves the user as it was |
| UserSession.Finish | src/contexts/UserContext.tsx:37-45 | when the call resumes the loading flag drops, whether the call completed or threw; a completed call overwrites the user and a throw keeps it |
| UserSession.Logout | src/contexts/UserContext.tsx:64-66 | logout clears the user and leaves the loading flag and any call in flight alone |
| UserSession.LogoutIdempotent | src/contexts/UserContext.tsx:64-66 | logging out twice equals logging out once |
| UserSession.LogoutWhenAnonymousIsNoOp | src/contexts/UserContext.tsx:64-66 | logging out with nobody signed in changes nothing |
| UserSession.LoginIgnoresPassword | src/contexts/UserContext.tsx:32-42 | the outcome of a login does not depend on the password, and a completed login yields the demo user under the given email |
| UserSession.CompletedCallOverwritesUser | src/contexts/UserContext.tsx:53 | a completed call yields the same session whoever was signed in before |
| UserSession.LogoutDuringLoginIsUndone | src/contexts/UserContext.tsx:36-37 | a logout made while a call waits out its delay is overwritten when the call completes |
| UserSession.OperationsKeepValid | src/contexts/UserContext.tsx:30-46 | the loading flag is up exactly while a call is suspended, and every operation keeps it so |
| AuthModal.CallFor | src/components/AuthModal.tsx:22-26 | login mode calls login(email, password); register mode calls register(name, email, password), using the current form |
| AuthModal.ToggleMode | src/components/AuthModal.tsx:126 | the mode switch flips login/register and leaves the form data and open state alone |
| AuthModal.ToggleTwiceRestores | src/components/AuthModal.tsx:126 | switching the mode twice restores the modal |
| AuthModal.Submit | src/components/AuthModal.tsx:115 | while the store is loading (the button is disabled) or the modal is closed, submit does nothing; otherwise it starts the call for the current mode and keeps the user |
| AuthModal.Settle | src/components/AuthModal.tsx:27-30 | the modal closes iff the awaited call completes, and the session resumes the call |
| AuthModal.SignInFromScratch | src/components/AuthModal.tsx:10-27 | from the initial modal (login mode) and empty session, a completed sign-in signs in the demo user under the entered email, ends loading and closes the modal |
| AuthModal.RegisterFromScratch | src/components/AuthModal.tsx:22-27 | after switching to register mode, a completed submit signs in the entered name and email with id '1' and closes the modal |
| AuthModal.FailedCallKeepsModalOpen | src/components/AuthModal.tsx:28-30 | a call that throws leaves the modal open, the user as before and loading over |
| MapView.GetCityCoordinates | src/components/MapView.tsx:228-230 | a name in the table returns its entry; any other name returns the default centre |
| MapView.AirportCodesAliasCities | src/components/MapView.tsx:44-55 | NYC, LAX, ORD and MIA return the same coordinates as New York, Los Angeles, Chicago and Miami |
| MapView.DefaultMeansUnknown | src/components/MapView.tsx:59 | the lookup returns the default map centre exactly for names outside the table |
| MapView.LookupIsExact | src/components/MapView.tsx:229 | lookup is exact and case-sensitive: near-miss spellings fall back to the default |

## Left out

- Rendering: all markup and styling, and the Header, Footer, Hero and App components, which only render and toggle visibility.
- The checkout modal's `isOpen` prop (src/components/CheckoutModal.tsx:32), which draws nothing when false. The model has no such flag: it treats the modal as always drawn, and its parent decides when it exists.
- Money formatting: the `.toFixed(2)` rendering of subtotals and totals (src/components/ShoppingCart.tsx:73, src/components/CheckoutModal.tsx:83). Amounts are exact reals and are never rendered.
- The payment form (src/components/PaymentForm.tsx): card tokenisation, the payment-intent request and the cents conversion are foreign calls and floating point. The checkout modal sees it only as a success or error report.
- The cart store (src/contexts/CartContext) is not part of this model. `addToCart`, `updateQuantity`, `removeFromCart` and `getTotalPrice` have no stated semantics here. The panel's requests are modelled; only "clear empties the cart" is assumed.
- Itinerary download, Web Share and clipboard (src/components/BookingManagement.tsx:126-162); alerts and console logging everywhere.
- Map rendering, geolocation and marker icon building (src/components/MapView.tsx:68-110). Object-prototype keys such as 'constructor' would escape the default in the source's plain-object lookup; the table here is a Dafny map over ordinary names.
- Timers and randomness: the 30-second interval, `Math.random`, the live/paused toggle and the last-updated clock of the flight tracker. A refresh takes the random draws as parameters. Simulated delays in the session store are split into begin and finish steps.
- Dates and locale formatting: `new Date()`, `toISOString` and `toLocaleTimeString`. Filing a claim takes the submission date as a parameter.
- Text.Lower: lower-cases ASCII letters only. Unicode case mapping is not modelled.
- FlightSection.LocaleCompare: plain character order instead of locale collation.
- FlightSection.SortFlights: is a stable insertion sort. For a consistent comparator this equals what a stable `Array.prototype.sort` (ECMAScript 2019 and later) returns; that equality is not proved. Stability is proved only for a key that compares everything equal.
- FlightSection.StopsLabel: stop counts are natural numbers. A negative count, which the source would render as "-1 stop", is not modelled.
- FlightTracker.UpdateFlight: real arithmetic without floating-point rounding or NaN. The contract assumes draws inside the ranges `Math.random` produces (`ValidDraw`): a progress step in [0, 5), an altitude delta in [-500, 500) and a speed delta in [-10, 10). FlightTracker.TickKeepsProgressInRange assumes every progress starts in [0, 100], as in the mock data.
- UserSession.Begin: requires that no call is in flight. Overlapping login/register calls are not modelled. In the source, the first call to finish would drop the loading flag while the second is still pending. The auth modal cannot start a second call, because its submit is disabled while loading (see `AuthModal.Submit`).
- BookingManagement.Step: the source's two modal flags and the selected booking are one `Dialog` value. Opening the edit or cancel modal therefore closes the other. In the source the two cannot be open together either, because an open modal's overlay covers the list's Edit and Cancel buttons.
- Browser form validation. Each submit event stands for a submission that has passed the browser's constraint validation: every `required` field is filled and every `type="email"` field holds an address. The model does not check this. It applies to CheckoutModal.ModalStep, ShoppingCart.PanelStep, TravelInsurance.WizardStep, BookingManagement.Step (SaveEdit), TravelInsurance.FileClaim and AuthModal.Submit. So, for example, the checkout modal here reaches payment with any non-empty email text, and the auth modal can start a call with empty fields, neither of which the browser lets through.
- The values of the insurance wizard's trip and personal-information fields and of the cart's shipping fields are not stored. They matter only through the validation above, which decides whether a submit happens.
- CheckoutModal.ModalStep: the email is checked only for being non-empty, as the handler does; the address format that `type="email"` enforces before the handler runs is not modelled.
- ShoppingCart.PanelStep: the `else` branch of `handleCheckout` (src/components/ShoppingCart.tsx:26-31) is not modelled. Step 3 draws no submit button and no input fields, so no control can reach that branch; its effect, clearing the cart and closing, is the Close button's.
- TravelInsurance.FileClaim: the amount is a whole number, as `parseInt` of a validated number field gives. NaN, which `parseInt` returns for text that is not a number, cannot get past the required number field and is not modelled.
- The auth modal's show-password toggle, the flight search form (it only re-shows the results), the insurance tabs, and the download-policy and contact-support alerts are presentational only.

=== FILE: auth_modal.dfy ===
/** The sign-in / create-account modal: a form with a login/register mode
    switch whose submit starts a session call and closes the modal when
    the call completes. */
module AuthModal {
  import opened Maybe
  import opened UserSession

  datatype AuthForm = AuthForm(name: string, email: string, password: string)

  datatype Modal = Modal(isLogin: bool, form: AuthForm, open: bool)

  /** The modal opens empty, in login mode. */
  const InitialModal: Modal := Modal(true, AuthForm("", "", ""), true)

  /** The session call the submit button makes in the current mode. */
  function CallFor(m: Modal): (c: Call)
    ensures m.isLogin ==> c == Login(m.form.email, m.form.password)
    ensures !m.isLogin ==> c == Register(m.form.name, m.form.email, m.form.password)
  {
    if m.isLogin then Login(m.form.email, m.form.password)
    else Register(m.form.name, m.form.email, m.form.password)
  }

  /** "Sign up" / "Sign in": switches mode, keeps what was typed. */
  function ToggleMode(m: Modal): (r: Modal)
    ensures r.isLogin == !m.isLogin
    ensures r.form == m.form && r.open == m.open
  {
    m.(isLogin := !m.isLogin)
  }

  lemma ToggleTwiceRestores(m: Modal)
    ensures ToggleMode(ToggleMode(m)) == m
  {
  }

  /** Pressing submit: disabled while the store is loading, otherwise it
      starts the call for the current mode. */
  function Submit(m: Modal, s: Session): (r: Session)
    requires UserSession.Valid(s)
    ensures UserSession.Valid(r)
    ensures s.isLoading ==> r == s
    ensures !m.open ==> r == s
    ensures !s.isLoading && m.open ==> r.isLoading && r.pending == Some(CallFor(m)) && r.user == s.user
  {
    if s.isLoading || !m.open then s else Begin(s, CallFor(m))
  }

  /** The awaited call resumes: the modal closes if it completed and stays
      open if it threw. */
  function Settle(m: Modal, s: Session, completes: bool): (r: (Modal, Session))
    requires s.pending.Some?
    ensures r.0.open == (m.open && !completes)
    ensures r.0.isLogin == m.isLogin && r.0.form == m.form
    ensures r.1 == Finish(s, completes)
  {
    (if completes then m.(open := false) else m, Finish(s, completes))
  }

  /** A full sign-in from the empty session: the entered email is signed
      in as the demo user, loading is over and the modal is closed. */
  lemma SignInFromScratch(email: string, password: string)
    ensures var m := InitialModal.(form := AuthForm("", email, password));
            var s := Submit(m, InitialSession);
            var (m', s') := Settle(m, s, true);
            && s'.user == Some(User("1", "Kalu Iroegbu", email, Some(DemoAvatar)))
            && !s'.isLoading && !m'.open
  {
  }

  /** Creating an account signs in the given name and email. */
  lemma RegisterFromScratch(name: string, email: string, password: string)
    ensures var m := ToggleMode(InitialModal).(form := AuthForm(name, email, password));
            var s := Submit(m, InitialSession);
            var (m', s') := Settle(m, s, true);
            && s'.user.Some? && s'.user.value.name == name && s'.user.value.email == email
            && s'.user.value.id == "1" && !m'.open
  {
  }

  /** A call that throws leaves the modal open and the user as before. */
  lemma FailedCallKeepsModalOpen(m: Modal, s: Session)
    requires UserSession.Valid(s) && !s.isLoading && m.open
    ensures var (m', s') := Settle(m, Submit(m, s), false);
            m'.open && s'.user == s.user && !s'.isLoading
  {
  }
}

=== FILE: bookings.dfy ===
/** The "Manage Your Bookings" dialog: a list of flight bookings that can be
    searched, filtered by status, edited (contact details only) and
    cancelled. */
module BookingManagement {
  import opened Maybe
  import opened Text
  import Seqs

  datatype BookingStatus = Confirmed | Cancelled | Completed

  /** The status select: 'all' or one status. */
  datatype StatusFilter = AllBookings | OnlyStatus(status: BookingStatus)

  datatype Booking = Booking(
    id: string,
    bookingReference: string,
    airline: string,
    flightNumber: string,
    from: string,
    to: string,
    departureDate: string,
    departureTime: string,
    arrivalTime: string,
    duration: string,
    passengers: int,
    totalPrice: real,
    status: BookingStatus,
    passengerName: string,
    email: string,
    phone: string,
    seatNumber: Option<string>,
    gate: Option<string>,
    terminal: Option<string>)

  /** No two bookings share an id. */
  predicate UniqueIds(bookings: seq<Booking>) {
    forall i, j :: 0 <= i < j < |bookings| ==> bookings[i].id != bookings[j].id
  }

  // ---------------------------------------------------------------------
  // Search and status filter

  predicate MatchesStatus(b: Booking, filter: StatusFilter) {
    filter.AllBookings? || b.status == filter.status
  }

  /** The search box looks at the reference, the airline and both ends of
      the route, ignoring case. */
  predicate MatchesSearch(b: Booking, term: string) {
    || IncludesIgnoringCase(b.bookingReference, term)
    || IncludesIgnoringCase(b.airline, term)
    || IncludesIgnoringCase(b.from, term)
    || IncludesIgnoringCase(b.to, term)
  }

  predicate Shown(b: Booking, filter: StatusFilter, term: string) {
    MatchesStatus(b, filter) && MatchesSearch(b, term)
  }

  /** The bookings listed for a status filter and search term: exactly the
      matching ones, in list order, and all of them when nothing narrows
      the view. */
  function FilteredBookings(bookings: seq<Booking>, filter: StatusFilter, term: string): (r: seq<Booking>)
    ensures forall b :: b in r <==> b in bookings && MatchesStatus(b, filter) && MatchesSearch(b, term)
    ensures Seqs.SubsequenceOf(r, bookings)
    ensures filter == AllBookings && term == "" ==> r == bookings
  {
    if filter == AllBookings && term == "" then
      forall b | b in bookings
        ensures Shown(b, filter, term)
      {
        IncludesIgnoringCaseEmpty(b.bookingReference);
      }
      Seqs.FilterAll(b => Shown(b, filter, term), bookings);
      Seqs.Filter(b => Shown(b, filter, term), bookings)
    else
      Seqs.Filter(b => Shown(b, filter, term), bookings)
  }

  // ---------------------------------------------------------------------
  // Cancel and edit

  function CancelOne(b: Booking, bookingId: string): Booking {
    if b.id == bookingId then b.(status := Cancelled) else b
  }

  /** Marks the booking with `bookingId` cancelled. */
  function CancelBooking(bookings: seq<Booking>, bookingId: string): (r: seq<Booking>)
    ensures |r| == |bookings|
    ensures forall i :: 0 <= i < |r| ==> r[i].id == bookings[i].id
    ensures forall i :: 0 <= i < |r| && bookings[i].id == bookingId ==> r[i] == bookings[i].(status := Cancelled)
    ensures forall i :: 0 <= i < |r| && bookings[i].id != bookingId ==> r[i] == bookings[i]
    decreases |bookings|
  {
    if bookings == [] then []
    else [CancelOne(bookings[0], bookingId)] + CancelBooking(bookings[1..], bookingId)
  }

  /** Cancelling twice is cancelling once. */
  lemma CancelIdempotent(bookings: seq<Booking>, bookingId: string)
    ensures CancelBooking(CancelBooking(bookings, bookingId), bookingId) == CancelBooking(bookings, bookingId)
  {
  }

  /** Cancelling an id that no booking carries changes nothing. */
  lemma CancelAbsentIsNoOp(bookings: seq<Booking>, bookingId: string)
    requires forall i :: 0 <= i < |bookings| ==> bookings[i].id != bookingId
    ensures CancelBooking(bookings, bookingId) == bookings
  {
  }

  function ReplaceOne(b: Booking, updated: Booking): Booking {
    if b.id == updated.id then updated else b
  }

  /** Puts `updated` in place of every booking that has its id. */
  function EditBooking(bookings: seq<Booking>, updated: Booking): (r: seq<Booking>)
    ensures |r| == |bookings|
    ensures forall i :: 0 <= i < |r| ==> r[i].id == bookings[i].id
    ensures forall i :: 0 <= i < |r| && bookings[i].id == updated.id ==> r[i] == updated
    ensures forall i :: 0 <= i < |r| && bookings[i].id != updated.id ==> r[i] == bookings[i]
    decreases |bookings|
  {
    if bookings == [] then []
    else [ReplaceOne(bookings[0], updated)] + EditBooking(bookings[1..], updated)
  }

  /** The edit form: the selected booking with new contact details. */
  function EditForm(selected: Booking, passengerName: string, email: string, phone: string): (r: Booking)
    ensures r.passengerName == passengerName && r.email == email && r.phone == phone
    ensures r == selected.(passengerName := r.passengerName, email := r.email, phone := r.phone)
  {
    selected.(passengerName := passengerName, email := email, phone := phone)
  }

  /** Saving the edit form on an unchanged booking leaves the list as it was. */
  lemma EditUnchangedIsNoOp(bookings: seq<Booking>, b: Booking)
    requires UniqueIds(bookings)
    requires b in bookings
    ensures EditBooking(bookings, EditForm(b, b.passengerName, b.email, b.phone)) == bookings
  {
    var r := EditBooking(bookings, EditForm(b, b.passengerName, b.email, b.phone));
    var k :| 0 <= k < |bookings| && bookings[k] == b;
    forall i | 0 <= i < |bookings|
      ensures r[i] == bookings[i]
    {
      if bookings[i].id == b.id {
        assert i == k;
      }
    }
  }

  // ---------------------------------------------------------------------
  // The dialog as a state machine

  /** The one modal open on top of the list, if any, with the booking it
      was opened for. */
  datatype Dialog = NoDialog | EditDialog(selected: Booking) | CancelDialog(selected: Booking)

  datatype Screen = Screen(bookings: seq<Booking>, dialog: Dialog, filter: StatusFilter, term: string)

  datatype Action =
    | SetSearch(term: string)
    | SetFilter(filter: StatusFilter)
    | OpenEdit(booking: Booking)
    | OpenCancel(booking: Booking)
    | SaveEdit(passengerName: string, email: string, phone: string)
    | ConfirmCancel
    | Dismiss

  /** Edit and Cancel buttons are drawn only on listed, confirmed bookings. */
  predicate Offered(s: Screen, b: Booking) {
    b in FilteredBookings(s.bookings, s.filter, s.term) && b.status == Confirmed
  }

  /** One user action. Search and filter change only themselves; a modal
      opens only for a booking whose buttons are drawn; the list changes
      only through the open modal's own save or confirm button, which also
      closes it; the list never grows or shrinks. */
  function Step(s: Screen, a: Action): (r: Screen)
    ensures |r.bookings| == |s.bookings|
    ensures !a.SetSearch? ==> r.term == s.term
    ensures !a.SetFilter? ==> r.filter == s.filter
    ensures r.dialog != s.dialog && !r.dialog.NoDialog? ==> Offered(s, r.dialog.selected)
    ensures r.bookings != s.bookings ==>
      (a.SaveEdit? && s.dialog.EditDialog?) || (a.ConfirmCancel? && s.dialog.CancelDialog?)
    ensures a.SaveEdit? && s.dialog.EditDialog? ==>
      r.dialog.NoDialog? &&
      r.bookings == EditBooking(s.bookings, EditForm(s.dialog.selected, a.passengerName, a.email, a.phone))
    ensures a.ConfirmCancel? && s.dialog.CancelDialog? ==>
      r.dialog.NoDialog? && r.bookings == CancelBooking(s.bookings, s.dialog.selected.id)
    ensures a.Dismiss? ==> r.dialog.NoDialog? && r.bookings == s.bookings
    ensures a.SetSearch? ==> r == s.(term := a.term)
    ensures a.SetFilter? ==> r == s.(filter := a.filter)
    ensures a.OpenEdit? ==> r == if Offered(s, a.booking) then s.(dialog := EditDialog(a.booking)) else s
    ensures a.OpenCancel? ==> r == if Offered(s, a.booking) then s.(dialog := CancelDialog(a.booking)) else s
  {
    match a
    case SetSearch(t) => s.(term := t)
    case SetFilter(f) => s.(filter := f)
    case OpenEdit(b) => if Offered(s, b) then s.(dialog := EditDialog(b)) else s
    case OpenCancel(b) => if Offered(s, b) then s.(dialog := CancelDialog(b)) else s
    case SaveEdit(n, e, p) =>
      if s.dialog.EditDialog? then
        s.(bookings := EditBooking(s.bookings, EditForm(s.dialog.selected, n, e, p)), dialog := NoDialog)
      else s
    case ConfirmCancel =>
      if s.dialog.CancelDialog? then
        s.(bookings := CancelBooking(s.bookings, s.dialog.selected.id), dialog := NoDialog)
      else s
    case Dismiss => s.(dialog := NoDialog)
  }

  /** Ids are unique and an open modal holds a confirmed booking of the list. */
  predicate Valid(s: Screen) {
    && UniqueIds(s.bookings)
    && (!s.dialog.NoDialog? ==> s.dialog.selected in s.bookings && s.dialog.selected.status == Confirmed)
  }

  /** Only the booking the modal was opened for can change, and a booking
      that is not confirmed never changes status. */
  lemma {:induction false} StepKeepsSettledBookings(s: Screen, a: Action)
    requires Valid(s)
    ensures Valid(Step(s, a))
    ensures |Step(s, a).bookings| == |s.bookings|
    ensures forall i :: 0 <= i < |s.bookings| && s.bookings[i].status != Confirmed ==>
              Step(s, a).bookings[i] == s.bookings[i]
  {
    var r := Step(s, a);
    if !s.dialog.NoDialog? && (a.SaveEdit? || a.ConfirmCancel?) {
      var sel := s.dialog.selected;
      var k :| 0 <= k < |s.bookings| && s.bookings[k] == sel;
      forall i | 0 <= i < |s.bookings| && s.bookings[i].id == sel.id
        ensures i == k
      {
      }
      assert UniqueIds(r.bookings) by {
        forall i, j | 0 <= i < j < |r.bookings|
          ensures r.bookings[i].id != r.bookings[j].id
        {
          assert s.bookings[i].id != s.bookings[j].id;
        }
      }
    } else if a.OpenEdit? || a.OpenCancel? {
      assert Valid(r);
    }
  }

  const MockBookings: seq<Booking> := [
    Booking("1", "KX7B9M", "American Airlines", "AA1234", "New York (NYC)", "Los Angeles (LAX)",
      "2024-02-15", "08:30", "11:45", "3h 15m", 1, 299.0, Confirmed,
      "Kalu Iroegbu", "kalu@example.com", "+234 7011180318", Some("12A"), Some("B7"), Some("Terminal 1")),
    Booking("2", "PL3K8N", "Delta Air Lines", "DL5678", "Los Angeles (LAX)", "Chicago (ORD)",
      "2024-02-20", "14:20", "19:50", "3h 30m", 2, 690.0, Confirmed,
      "Kalu Iroegbu", "kalu@example.com", "+234 7011180318", Some("15B, 15C"), None, None),
    Booking("3", "QR9X2V", "United Airlines", "UA9012", "Miami (MIA)", "New York (NYC)",
      "2024-01-10", "16:45", "19:20", "2h 35m", 1, 275.0, Completed,
      "Kalu Iroegbu", "kalu@example.com", "+234 7011180318", None, None, None)
  ]

  /** The dialog opens on the mock bookings, all shown, no modal. */
  const Initial: Screen := Screen(MockBookings, NoDialog, AllBookings, "")

  lemma InitialValid()
    ensures Valid(Initial)
    ensures FilteredBookings(Initial.bookings, Initial.filter, Initial.term) == MockBookings
  {
  }

  /** Whatever the user does, the completed mock booking stays completed. */
  lemma {:induction false} CompletedBookingStaysCompleted(actions: seq<Action>)
    ensures |Run(Initial, actions).bookings| == 3
    ensures Run(Initial, actions).bookings[2] == MockBookings[2]
  {
    InitialValid();
    RunKeepsSettledBookings(Initial, actions);
  }

  function Run(s: Screen, actions: seq<Action>): Screen
    decreases |actions|
  {
    if actions == [] then s else Run(Step(s, actions[0]), actions[1..])
  }

  lemma {:induction false} RunKeepsSettledBookings(s: Screen, actions: seq<Action>)
    requires Valid(s)
    ensures Valid(Run(s, actions))
    ensures |Run(s, actions).bookings| == |s.bookings|
    ensures forall i :: 0 <= i < |s.bookings| && s.bookings[i].status != Confirmed ==>
              Run(s, actions).bookings[i] == s.bookings[i]
    decreases |actions|
  {
    if actions != [] {
      StepKeepsSettledBookings(s, actions[0]);
      RunKeepsSettledBookings(Step(s, actions[0]), actions[1..]);
    }
  }
}

=== FILE: checkout_modal.dfy ===
/** The secure checkout modal: a customer-details form that, once name and
    email are given, gives way to the card payment form. The payment form
    itself (card tokenisation and the payment network) is outside the
    model; it only reports success or an error. */
module CheckoutModal {

  datatype CustomerInfo = CustomerInfo(name: string, email: string, phone: string)

  datatype Stage = InfoStage | PaymentStage

  datatype Modal = Modal(info: CustomerInfo, stage: Stage)

  const InitialModal: Modal := Modal(CustomerInfo("", "", ""), InfoStage)

  /** Calls the modal makes to its parent, in order. */
  datatype Effect = NotifyPaymentSuccess(paymentIntent: string) | CloseModal

  datatype ModalEvent =
    | EditName(name: string)
    | EditEmail(email: string)
    | EditPhone(phone: string)
    | SubmitInfo                                 // "Continue to Payment"
    | PaymentSucceeded(paymentIntent: string)    // reported by the payment form
    | PaymentFailed(message: string)             // reported by the payment form
    | CloseButton                                // the modal's X

  datatype Outcome = Outcome(modal: Modal, effects: seq<Effect>)

  /** Name and email are required; phone is optional. */
  predicate InfoComplete(info: CustomerInfo) {
    info.name != "" && info.email != ""
  }

  function ModalStep(m: Modal, e: ModalEvent): (r: Outcome)
    ensures m.stage == PaymentStage ==> r.modal.stage == PaymentStage
    ensures e == SubmitInfo && m.stage == InfoStage ==>
              (r.modal.stage == PaymentStage <==> InfoComplete(m.info))
    ensures m.stage == InfoStage && r.modal.stage == PaymentStage ==>
              e == SubmitInfo && InfoComplete(m.info)
  {
    match e
    case EditName(n) =>
      if m.stage == InfoStage then Outcome(m.(info := m.info.(name := n)), []) else Outcome(m, [])
    case EditEmail(s) =>
      if m.stage == InfoStage then Outcome(m.(info := m.info.(email := s)), []) else Outcome(m, [])
    case EditPhone(s) =>
      if m.stage == InfoStage then Outcome(m.(info := m.info.(phone := s)), []) else Outcome(m, [])
    case SubmitInfo =>
      if m.stage == InfoStage && m.info.name != "" && m.info.email != "" then
        Outcome(m.(stage := PaymentStage), [])
      else Outcome(m, [])
    case PaymentSucceeded(intent) =>
      if m.stage == PaymentStage then Outcome(m, [NotifyPaymentSuccess(intent), CloseModal])
      else Outcome(m, [])
    case PaymentFailed(_) => Outcome(m, [])
    case CloseButton => Outcome(m, [CloseModal])
  }

  /** The phone number never decides whether payment is reached. */
  lemma PhoneIsOptional(m: Modal, phone: string)
    ensures ModalStep(m, SubmitInfo).modal.stage ==
            ModalStep(m.(info := m.info.(phone := phone)), SubmitInfo).modal.stage
  {
  }

  function RunModal(m: Modal, events: seq<ModalEvent>): Modal
    decreases |events|
  {
    if events == [] then m else RunModal(ModalStep(m, events[0]).modal, events[1..])
  }

  /** Once the payment stage is reached no sequence of events returns to
      the details form. */
  lemma {:induction false} PaymentStageIsFinal(m: Modal, events: seq<ModalEvent>)
    requires m.stage == PaymentStage
    ensures RunModal(m, events).stage == PaymentStage
    decreases |events|
  {
    if events != [] {
      PaymentStageIsFinal(ModalStep(m, events[0]).modal, events[1..]);
    }
  }

  /** A successful payment notifies the parent first and closes second. */
  lemma SuccessNotifiesThenCloses(m: Modal, intent: string)
    requires m.stage == PaymentStage
    ensures ModalStep(m, PaymentSucceeded(intent)) == Outcome(m, [NotifyPaymentSuccess(intent), CloseModal])
  {
  }

  /** A payment error changes nothing: the modal stays open, on the same
      stage, with the same details. */
  lemma ErrorKeepsModal(m: Modal, message: string)
    ensures ModalStep(m, PaymentFailed(message)) == Outcome(m, [])
  {
  }

  /** Filling in name and email and submitting reaches payment. */
  lemma DetailsThenSubmitReachesPayment(name: string, email: string, phone: string)
    requires name != "" && email != ""
    ensures RunModal(InitialModal, [EditName(name), EditEmail(email), EditPhone(phone), SubmitInfo]) ==
            Modal(CustomerInfo(name, email, phone), PaymentStage)
  {
    var events := [EditName(name), EditEmail(email), EditPhone(phone), SubmitInfo];
    var m1 := Modal(CustomerInfo(name, "", ""), InfoStage);
    var m2 := Modal(CustomerInfo(name, email, ""), InfoStage);
    var m3 := Modal(CustomerInfo(name, email, phone), InfoStage);
    assert events[1..] == [EditEmail(email), EditPhone(phone), SubmitInfo];
    assert RunModal(m3, [SubmitInfo]) == Modal(CustomerInfo(name, email, phone), PaymentStage);
    assert RunModal(m2, [EditPhone(phone), SubmitInfo]) == RunModal(m3, [SubmitInfo]);
    assert RunModal(m1, [EditEmail(email), EditPhone(phone), SubmitInfo]) == RunModal(m2, [EditPhone(phone), SubmitInfo]);
  }

  /** The details form gives way to payment only through a submit made
      while name and email were both filled in: if a run from the details
      stage ends on payment, some event of it was such a submit. */
  lemma {:induction false} PaymentNeedsCompleteSubmit(m: Modal, events: seq<ModalEvent>)
    requires m.stage == InfoStage
    requires RunModal(m, events).stage == PaymentStage
    ensures exists i :: 0 <= i < |events| && events[i] == SubmitInfo && InfoComplete(RunModal(m, events[..i]).info)
    decreases |events|
  {
    var next := ModalStep(m, events[0]).modal;
    if next.stage == PaymentStage {
      assert events[..0] == [];
      assert events[0] == SubmitInfo && InfoComplete(RunModal(m, events[..0]).info);
    } else {
      PaymentNeedsCompleteSubmit(next, events[1..]);
      var j :| 0 <= j < |events[1..]| && events[1..][j] == SubmitInfo
               && InfoComplete(RunModal(next, events[1..][..j]).info);
      var pre := events[..j + 1];
      assert pre[0] == events[0] && pre[1..] == events[1..][..j];
      assert RunModal(m, pre) == RunModal(next, events[1..][..j]);
      assert events[j + 1] == SubmitInfo && InfoComplete(RunModal(m, events[..j + 1]).info);
    }
  }
}

=== FILE: consignment.dfy ===
/** The consignment marketplace: item search with a category select, and
    the heart button that toggles an item in the favourites list. */
module Consignment {
  import opened Maybe
  import opened Text
  import Seqs

  datatype ConsignmentItem = ConsignmentItem(
    id: string,
    title: string,
    price: real,
    originalPrice: Option<real>,
    image: string,
    condition: string,
    location: string,
    seller: string,
    rating: real,
    category: string,
    description: string)

  /** The category select's catch-all entry. */
  const AllCategories: string := "All"

  /** Title or description contains the term, ignoring case. */
  predicate MatchesSearch(item: ConsignmentItem, term: string) {
    IncludesIgnoringCase(item.title, term) || IncludesIgnoringCase(item.description, term)
  }

  predicate MatchesCategory(item: ConsignmentItem, category: string) {
    category == AllCategories || item.category == category
  }

  predicate Shown(item: ConsignmentItem, term: string, category: string) {
    MatchesSearch(item, term) && MatchesCategory(item, category)
  }

  /** The items on display: exactly the matching ones, in catalogue order,
      and the whole catalogue for an empty search in "All". */
  function FilteredItems(items: seq<ConsignmentItem>, term: string, category: string): (r: seq<ConsignmentItem>)
    ensures forall x :: x in r <==> x in items && MatchesSearch(x, term) && MatchesCategory(x, category)
    ensures Seqs.SubsequenceOf(r, items)
    ensures term == "" && category == AllCategories ==> r == items
  {
    if term == "" && category == AllCategories then
      forall x | x in items
        ensures Shown(x, term, category)
      {
        IncludesIgnoringCaseEmpty(x.title);
      }
      Seqs.FilterAll(x => Shown(x, term, category), items);
      Seqs.Filter(x => Shown(x, term, category), items)
    else
      Seqs.Filter(x => Shown(x, term, category), items)
  }

  // ---------------------------------------------------------------------
  // Favourites

  /** No id appears twice. */
  predicate NoDuplicates(ids: seq<string>) {
    forall i, j :: 0 <= i < j < |ids| ==> ids[i] != ids[j]
  }

  /** The heart button: removes every copy of `itemId` if it is a
      favourite, appends it otherwise. */
  function ToggleFavorite(favorites: seq<string>, itemId: string): (r: seq<string>)
    ensures itemId in r <==> itemId !in favorites
    ensures forall x :: x != itemId ==> (x in r <==> x in favorites)
  {
    if itemId in favorites then Seqs.Filter(id => id != itemId, favorites)
    else favorites + [itemId]
  }

  /** Toggling keeps the favourites free of duplicates. */
  lemma ToggleKeepsNoDuplicates(favorites: seq<string>, itemId: string)
    requires NoDuplicates(favorites)
    ensures NoDuplicates(ToggleFavorite(favorites, itemId))
  {
    if itemId in favorites {
      FilterKeepsNoDuplicates(favorites, itemId);
    }
  }

  lemma {:induction false} FilterKeepsNoDuplicates(ids: seq<string>, itemId: string)
    requires NoDuplicates(ids)
    ensures NoDuplicates(Seqs.Filter(id => id != itemId, ids))
    decreases |ids|
  {
    if ids != [] {
      var rest := Seqs.Filter(id => id != itemId, ids[1..]);
      assert NoDuplicates(ids[1..]) by {
        forall i, j | 0 <= i < j < |ids[1..]|
          ensures ids[1..][i] != ids[1..][j]
        {
          assert ids[i + 1] != ids[j + 1];
        }
      }
      FilterKeepsNoDuplicates(ids[1..], itemId);
      assert ids[0] !in ids[1..] by {
        forall k | 0 <= k < |ids[1..]|
          ensures ids[1..][k] != ids[0]
        {
          assert ids[0] != ids[k + 1];
        }
      }
      assert ids[0] !in rest;
    }
  }

  /** Favouriting an item and un-favouriting it restores the list exactly. */
  lemma ToggleTwiceRestores(favorites: seq<string>, itemId: string)
    requires itemId !in favorites
    ensures ToggleFavorite(ToggleFavorite(favorites, itemId), itemId) == favorites
  {
    var p := (id: string) => id != itemId;
    Seqs.FilterAppend(p, favorites, [itemId]);
    Seqs.FilterAll(p, favorites);
  }

  /** The favourites after a sequence of clicks, starting from `favorites`. */
  function ToggleAll(favorites: seq<string>, clicks: seq<string>): seq<string>
    decreases |clicks|
  {
    if clicks == [] then favorites else ToggleAll(ToggleFavorite(favorites, clicks[0]), clicks[1..])
  }

  /** The favourites start empty, so no sequence of clicks can produce a
      duplicate. */
  lemma FavoritesNeverDuplicate(clicks: seq<string>)
    ensures NoDuplicates(ToggleAll([], clicks))
  {
    ToggleAllKeepsNoDuplicates([], clicks);
  }

  lemma {:induction false} ToggleAllKeepsNoDuplicates(favorites: seq<string>, clicks: seq<string>)
    requires NoDuplicates(favorites)
    ensures NoDuplicates(ToggleAll(favorites, clicks))
    decreases |clicks|
  {
    if clicks != [] {
      ToggleKeepsNoDuplicates(favorites, clicks[0]);
      ToggleAllKeepsNoDuplicates(ToggleFavorite(favorites, clicks[0]), clicks[1..]);
    }
  }

  /** After any clicks, an item is a favourite exactly when it was clicked
      an odd number of times. */
  lemma {:induction false} FavoriteIffOddClicks(clicks: seq<string>, itemId: string)
    ensures itemId in ToggleAll([], clicks) <==> ClickCount(clicks, itemId) % 2 == 1
  {
    ToggleAllParity([], clicks, itemId);
  }

  function ClickCount(clicks: seq<string>, itemId: string): nat
    decreases |clicks|
  {
    if clicks == [] then 0
    else (if clicks[0] == itemId then 1 else 0) + ClickCount(clicks[1..], itemId)
  }

  lemma {:induction false} ToggleAllParity(favorites: seq<string>, clicks: seq<string>, itemId: string)
    ensures itemId in ToggleAll(favorites, clicks) <==>
            (itemId in favorites) != (ClickCount(clicks, itemId) % 2 == 1)
    decreases |clicks|
  {
    if clicks != [] {
      ToggleAllParity(ToggleFavorite(favorites, clicks[0]), clicks[1..], itemId);
    }
  }
}

=== FILE: flight_search.dfy ===
/** The flight search results: the list of flights sorted by the chosen key,
    and the label shown for the number of stops. */
module FlightSection {
  import opened Text

  datatype Flight = Flight(
    id: string,
    airline: string,
    departureTime: string,
    arrivalTime: string,
    duration: string,
    price: real,
    stops: nat,
    from: string,
    to: string,
    date: string,
    logo: string,
    rating: real)

  // ---------------------------------------------------------------------
  // String order

  /** `a` sorts before or equal to `b` character by character, a proper
      prefix first. Stands for `localeCompare`, whose locale collation is
      not modelled. */
  predicate LexLe(a: string, b: string)
    decreases |a|
  {
    a == [] || (b != [] && (a[0] < b[0] || (a[0] == b[0] && LexLe(a[1..], b[1..]))))
  }

  /** `a.localeCompare(b)`: negative, zero or positive. */
  function LocaleCompare(a: string, b: string): (r: int)
    ensures r <= 0 <==> LexLe(a, b)
    ensures r == 0 <==> a == b
  {
    if a == b then
      LexLeReflexive(a);
      0
    else if LexLe(a, b) then -1
    else 1
  }

  lemma {:induction false} LexLeReflexive(a: string)
    ensures LexLe(a, a)
    decreases |a|
  {
    if a != [] {
      LexLeReflexive(a[1..]);
    }
  }

  lemma {:induction false} LexLeTotal(a: string, b: string)
    ensures LexLe(a, b) || LexLe(b, a)
    decreases |a|
  {
    if a != [] && b != [] && a[0] == b[0] {
      LexLeTotal(a[1..], b[1..]);
    }
  }

  lemma {:induction false} LexLeTransitive(a: string, b: string, c: string)
    requires LexLe(a, b) && LexLe(b, c)
    ensures LexLe(a, c)
    decreases |a|
  {
    if a != [] && a[0] == b[0] && b[0] == c[0] {
      LexLeTransitive(a[1..], b[1..], c[1..]);
    }
  }

  // ---------------------------------------------------------------------
  // The comparator and the sort

  /** Two strings each sorting before-or-equal to the other are equal. */
  lemma {:induction false} LexLeAntisymmetric(a: string, b: string)
    requires LexLe(a, b) && LexLe(b, a)
    ensures a == b
    decreases |a|
  {
    if a != [] {
      LexLeAntisymmetric(a[1..], b[1..]);
      assert a == [a[0]] + a[1..] && b == [b[0]] + b[1..];
    }
  }

  /** The comparator handed to `sort`: by ascending price, by duration
      text, by descending rating, and 0 for any other key. A result <= 0
      lets `a` stay ahead of `b`. */
  function Comparator(sortBy: string, a: Flight, b: Flight): real {
    if sortBy == "price" then a.price - b.price
    else if sortBy == "duration" then LocaleCompare(a.duration, b.duration) as real
    else if sortBy == "rating" then b.rating - a.rating
    else 0.0
  }

  /** What the comparator's sign means for each key. */
  lemma ComparatorSign(sortBy: string, a: Flight, b: Flight)
    ensures var r := Comparator(sortBy, a, b);
            && (sortBy == "price" ==> (r <= 0.0 <==> a.price <= b.price))
            && (sortBy == "duration" ==> (r <= 0.0 <==> LexLe(a.duration, b.duration)))
            && (sortBy == "duration" ==> (r == 0.0 <==> a.duration == b.duration))
            && (sortBy == "rating" ==> (r <= 0.0 <==> a.rating >= b.rating))
            && (sortBy != "price" && sortBy != "duration" && sortBy != "rating" ==> r == 0.0)
  {
  }

  /** Swapping the two flights negates the comparator's verdict, for
      every key. */
  lemma ComparatorAntisymmetric(sortBy: string, a: Flight, b: Flight)
    ensures Comparator(sortBy, b, a) == -Comparator(sortBy, a, b)
  {
    if sortBy == "duration" && a.duration != b.duration {
      LexLeTotal(a.duration, b.duration);
      if LexLe(a.duration, b.duration) && LexLe(b.duration, a.duration) {
        LexLeAntisymmetric(a.duration, b.duration);
      }
    }
  }

  /** `a` may stay ahead of `b`. */
  predicate InOrder(sortBy: string, a: Flight, b: Flight) {
    Comparator(sortBy, a, b) <= 0.0
  }

  lemma InOrderTotal(sortBy: string, a: Flight, b: Flight)
    ensures InOrder(sortBy, a, b) || InOrder(sortBy, b, a)
  {
    LexLeTotal(a.duration, b.duration);
  }

  lemma InOrderTransitive(sortBy: string, a: Flight, b: Flight, c: Flight)
    requires InOrder(sortBy, a, b) && InOrder(sortBy, b, c)
    ensures InOrder(sortBy, a, c)
  {
    if sortBy == "duration" {
      LexLeTransitive(a.duration, b.duration, c.duration);
    }
  }

  predicate Sorted(sortBy: string, s: seq<Flight>) {
    forall i, j :: 0 <= i < j < |s| ==> InOrder(sortBy, s[i], s[j])
  }

  /** Inserts `x` ahead of the first flight it may precede. */
  function Insert(sortBy: string, x: Flight, s: seq<Flight>): (r: seq<Flight>)
    requires Sorted(sortBy, s)
    ensures multiset(r) == multiset(s) + multiset{x}
    ensures Sorted(sortBy, r)
    decreases |s|
  {
    if s == [] || InOrder(sortBy, x, s[0]) then
      forall j | 0 <= j < |s|
        ensures InOrder(sortBy, x, s[j])
      {
        InOrderTransitive(sortBy, x, s[0], s[j]);
      }
      [x] + s
    else
      InOrderTotal(sortBy, x, s[0]);
      var rest := Insert(sortBy, x, s[1..]);
      assert s == [s[0]] + s[1..];
      var r := [s[0]] + rest;
      forall j | 0 < j < |r|
        ensures InOrder(sortBy, s[0], r[j])
      {
        assert r[j] in multiset(rest);
      }
      r
  }

  /** `[...flights].sort(comparator)`: a sorted permutation of a copy, the
      source list left as it was (values are immutable here). */
  function SortFlights(sortBy: string, flights: seq<Flight>): (r: seq<Flight>)
    ensures multiset(r) == multiset(flights)
    ensures |r| == |flights|
    ensures Sorted(sortBy, r)
    decreases |flights|
  {
    if flights == [] then []
    else
      assert flights == [flights[0]] + flights[1..];
      Insert(sortBy, flights[0], SortFlights(sortBy, flights[1..]))
  }

  /** Sorting by price gives non-decreasing prices. */
  lemma SortByPriceAscending(flights: seq<Flight>)
    ensures var r := SortFlights("price", flights);
            forall i, j :: 0 <= i < j < |r| ==> r[i].price <= r[j].price
  {
    var r := SortFlights("price", flights);
    forall i, j | 0 <= i < j < |r|
      ensures r[i].price <= r[j].price
    {
      assert InOrder("price", r[i], r[j]);
    }
  }

  /** Sorting by rating gives non-increasing ratings. */
  lemma SortByRatingDescending(flights: seq<Flight>)
    ensures var r := SortFlights("rating", flights);
            forall i, j :: 0 <= i < j < |r| ==> r[i].rating >= r[j].rating
  {
    var r := SortFlights("rating", flights);
    forall i, j | 0 <= i < j < |r|
      ensures r[i].rating >= r[j].rating
    {
      assert InOrder("rating", r[i], r[j]);
    }
  }

  /** Sorting by duration orders the duration texts. */
  lemma SortByDurationAscending(flights: seq<Flight>)
    ensures var r := SortFlights("duration", flights);
            forall i, j :: 0 <= i < j < |r| ==> LexLe(r[i].duration, r[j].duration)
  {
    var r := SortFlights("duration", flights);
    forall i, j | 0 <= i < j < |r|
      ensures LexLe(r[i].duration, r[j].duration)
    {
      assert InOrder("duration", r[i], r[j]);
    }
  }

  /** Any other key compares everything equal, and the stable sort keeps
      the list as it was. */
  lemma {:induction false} SortByUnknownKeyKeepsOrder(sortBy: string, flights: seq<Flight>)
    requires sortBy != "price" && sortBy != "duration" && sortBy != "rating"
    ensures SortFlights(sortBy, flights) == flights
    decreases |flights|
  {
    if flights != [] {
      SortByUnknownKeyKeepsOrder(sortBy, flights[1..]);
      assert flights == [flights[0]] + flights[1..];
    }
  }

  // ---------------------------------------------------------------------
  // Labels

  /** The stops line under each result. Only a direct flight reads
      "Direct"; any other label opens with the count in decimal, then a
      space, so the count can be read back from it. */
  function StopsLabel(stops: nat): (r: string)
    ensures r == "Direct" <==> stops == 0
    ensures stops > 0 ==>
      var k := |NatToString(stops)|;
      && k < |r| && r[k] == ' '
      && AllDigits(r[..k]) && ParseNat(r[..k]) == stops
  {
    if stops == 0 then "Direct"
    else
      var digits := NatToString(stops);
      var r := digits + " stop" + (if stops > 1 then "s" else "");
      assert r[..|digits|] == digits;
      assert r[0] == digits[0];
      ParseNatToString(stops);
      r
  }

  lemma StopsLabelCases()
    ensures StopsLabel(0) == "Direct"
    ensures StopsLabel(1) == "1 stop"
    ensures forall n: nat :: n > 1 ==> StopsLabel(n) == NatToString(n) + " stops"
  {
  }

  /** Different stop counts never share a label. */
  lemma StopsLabelInjective(m: nat, n: nat)
    ensures StopsLabel(m) == StopsLabel(n) ==> m == n
  {
    if StopsLabel(m) == StopsLabel(n) && m != 0 && n != 0 {
      var a, b := NatToString(m), NatToString(n);
      // A label is the digits then " stop": the digits end at the first
      // space, so equal labels have equal digits.
      assert |a| == |b|;
      assert a == StopsLabel(m)[..|a|];
      NatToStringInjective(m, n);
    } else if m != n && (m == 0 || n == 0) {
      var k := if m == 0 then n else m;
      assert StopsLabel(k)[0] == NatToString(k)[0];
    }
  }

  /** Every mock flight shows the same stock photo as its logo. */
  const Logo: string := "https://images.pexels.com/photos/46148/aircraft-jet-landing-cloud-46148.jpeg?auto=compress&cs=tinysrgb&w=100"

  const MockFlights: seq<Flight> := [
    Flight("1", "American Airlines", "08:30", "11:45", "3h 15m", 299.0, 0, "NYC", "LAX", "2024-01-15", Logo, 4.2),
    Flight("2", "Delta Air Lines", "14:20", "17:50", "3h 30m", 345.0, 0, "NYC", "LAX", "2024-01-15", Logo, 4.5),
    Flight("3", "United Airlines", "09:15", "13:30", "4h 15m", 275.0, 1, "NYC", "LAX", "2024-01-15", Logo, 4.1),
    Flight("4", "Southwest Airlines", "16:45", "21:20", "4h 35m", 259.0, 1, "NYC", "LAX", "2024-01-15", Logo, 4.0)
  ]

  /** A flight that may precede the head of a sorted list goes first. */
  lemma InsertAhead(sortBy: string, x: Flight, s: seq<Flight>)
    requires Sorted(sortBy, s) && s != [] && InOrder(sortBy, x, s[0])
    ensures Insert(sortBy, x, s) == [x] + s
  {
  }

  /** A flight that may not precede the head goes somewhere after it. */
  lemma InsertBehind(sortBy: string, x: Flight, s: seq<Flight>)
    requires Sorted(sortBy, s) && s != [] && !InOrder(sortBy, x, s[0])
    ensures Insert(sortBy, x, s) == [s[0]] + Insert(sortBy, x, s[1..])
  {
  }

  lemma SortTwoByPrice(c: Flight, d: Flight)
    requires d.price < c.price
    ensures SortFlights("price", [c, d]) == [d, c]
  {
    assert [c, d][1..] == [d] && [d][1..] == [];
    InsertBehind("price", c, [d]);
  }

  lemma SortThreeByPrice(b: Flight, c: Flight, d: Flight)
    requires d.price < c.price < b.price
    ensures SortFlights("price", [b, c, d]) == [d, c, b]
  {
    assert [b, c, d][1..] == [c, d];
    SortTwoByPrice(c, d);
    InsertBehind("price", b, [d, c]);
    InsertBehind("price", b, [c]);
  }

  /** Inserting a by price into d, c, b, where c < a < b, lands it third. */
  lemma InsertThirdByPrice(a: Flight, b: Flight, c: Flight, d: Flight)
    requires d.price < c.price < a.price < b.price
    ensures Insert("price", a, [d, c, b]) == [d, c, a, b]
  {
    assert [d, c, b][1..] == [c, b] && [c, b][1..] == [b];
    InsertAhead("price", a, [b]);
    InsertBehind("price", a, [c, b]);
    InsertBehind("price", a, [d, c, b]);
  }

  /** Four flights whose prices rank d < c < a < b come out as d, c, a, b. */
  lemma SortFourByPrice(a: Flight, b: Flight, c: Flight, d: Flight)
    requires d.price < c.price < a.price < b.price
    ensures SortFlights("price", [a, b, c, d]) == [d, c, a, b]
  {
    assert [a, b, c, d][1..] == [b, c, d];
    SortThreeByPrice(b, c, d);
    InsertThirdByPrice(a, b, c, d);
  }

  /** Sorted by price, the mock results read Southwest, United, American,
      Delta: cheapest first. */
  lemma MockFlightsByPrice()
    ensures var r := SortFlights("price", MockFlights);
            |r| == 4 && r[0].id == "4" && r[1].id == "3" && r[2].id == "1" && r[3].id == "2"
  {
    var m := MockFlights;
    assert m == [m[0], m[1], m[2], m[3]];
    SortFourByPrice(m[0], m[1], m[2], m[3]);
  }
}

=== FILE: flight_tracker.dfy ===
/** The live flight tracker: a searchable list of flight statuses and the
    periodic refresh that advances in-flight progress. The timer and
    `Math.random` are outside the model: each refresh receives the random
    draws it would have made as a parameter. */
module FlightTracker {
  import opened Maybe
  import opened Text
  import Seqs

  datatype Status = Scheduled | Boarding | Departed | InFlight | Delayed | Arrived | Cancelled

  datatype Weather = Weather(departure: string, arrival: string)

  datatype FlightStatus = FlightStatus(
    id: string,
    flightNumber: string,
    airline: string,
    from: string,
    to: string,
    departureTime: string,
    arrivalTime: string,
    actualDeparture: Option<string>,
    actualArrival: Option<string>,
    estimatedArrival: Option<string>,
    status: Status,
    gate: Option<string>,
    terminal: Option<string>,
    aircraft: string,
    altitude: Option<real>,
    speed: Option<real>,
    progress: real,
    delay: Option<int>,
    weather: Weather,
    passengers: int,
    distance: int,
    remainingTime: Option<string>)

  // ---------------------------------------------------------------------
  // Search

  /** The search term starts as the `flightNumber` prop, or empty. */
  function InitialSearchTerm(flightNumberProp: Option<string>): (term: string)
    ensures flightNumberProp.None? ==> term == ""
    ensures flightNumberProp.Some? ==> term == flightNumberProp.value
  {
    flightNumberProp.GetOr("")
  }

  predicate MatchesSearch(f: FlightStatus, term: string) {
    || IncludesIgnoringCase(f.flightNumber, term)
    || IncludesIgnoringCase(f.airline, term)
    || IncludesIgnoringCase(f.from, term)
    || IncludesIgnoringCase(f.to, term)
  }

  /** The flights listed for a search term: exactly the matching ones, in
      list order, and every flight for the empty term. */
  function FilteredFlights(flights: seq<FlightStatus>, term: string): (r: seq<FlightStatus>)
    ensures forall f :: f in r <==> f in flights && MatchesSearch(f, term)
    ensures Seqs.SubsequenceOf(r, flights)
    ensures term == "" ==> r == flights
  {
    if term == "" then
      forall f | f in flights
        ensures MatchesSearch(f, term)
      {
        IncludesIgnoringCaseEmpty(f.flightNumber);
      }
      Seqs.FilterAll(f => MatchesSearch(f, term), flights);
      Seqs.Filter(f => MatchesSearch(f, term), flights)
    else
      Seqs.Filter(f => MatchesSearch(f, term), flights)
  }

  /** Opened without a flight number, the tracker lists every flight. */
  lemma OpenedWithoutFlightNumberShowsAll(flights: seq<FlightStatus>)
    ensures FilteredFlights(flights, InitialSearchTerm(None)) == flights
  {
  }

  /** Opened with a flight number, the tracker lists exactly the flights
      that mention it. */
  lemma OpenedWithFlightNumberShowsMatches(flights: seq<FlightStatus>, flightNumber: string)
    ensures forall f :: f in FilteredFlights(flights, InitialSearchTerm(Some(flightNumber))) <==>
                        f in flights && MatchesSearch(f, flightNumber)
  {
  }

  // ---------------------------------------------------------------------
  // Refresh

  /** The three random draws one refresh makes for one flight:
      `Math.random() * 5`, `(Math.random() - 0.5) * 1000` and
      `(Math.random() - 0.5) * 20`. */
  datatype Draw = Draw(progressStep: real, altitudeDelta: real, speedDelta: real)

  predicate ValidDraw(d: Draw) {
    && 0.0 <= d.progressStep < 5.0
    && -500.0 <= d.altitudeDelta < 500.0
    && -10.0 <= d.speedDelta < 10.0
  }

  function Min(a: real, b: real): real { if a <= b then a else b }

  function Max(a: real, b: real): real { if a >= b then a else b }

  /** An optional reading nudged by `delta`. An absent reading, and also a
      reading of exactly 0 (falsy in the source), yields 0 rather than
      `0 + delta`; the result is clamped at 0. */
  function Nudge(reading: Option<real>, delta: real): (r: Option<real>)
    ensures r.Some? && r.value >= 0.0
    ensures reading.Some? && reading.value != 0.0 && reading.value + delta >= 0.0 ==> r == Some(reading.value + delta)
    ensures reading.None? || reading == Some(0.0) ==> r == Some(0.0)
    ensures reading.Some? && reading.value != 0.0 && reading.value + delta < 0.0 ==> r == Some(0.0)
  {
    var moved := if reading.Some? && reading.value != 0.0 then reading.value + delta else 0.0;
    Some(Max(0.0, moved))
  }

  /** The remaining-time label: twice the missing percentage, floored, in
      minutes. The label is a decimal count followed by "m", and the count
      reads back as that number of minutes. */
  function RemainingTime(progress: real): (s: string)
    ensures |s| >= 2 && s[|s| - 1] == 'm'
    ensures AllDigits(s[..|s| - 1])
    ensures s[0] == '0' ==> s == "0m"
    ensures progress >= 100.0 ==> s == "0m"
    ensures progress < 100.0 ==> ParseNat(s[..|s| - 1]) == ((100.0 - progress) * 2.0).Floor
  {
    if progress >= 100.0 then "0m"
    else
      var minutes := ((100.0 - progress) * 2.0).Floor;
      var digits := NatToString(minutes);
      assert (digits + "m")[..|digits|] == digits;
      ParseNatToString(minutes);
      digits + "m"
  }

  /** The label reads "0m" exactly when less than half a percent is left;
      in particular at 100. */
  lemma RemainingTimeZero(progress: real)
    requires progress <= 100.0
    ensures RemainingTime(progress) == "0m" <==> progress > 99.5
  {
    if progress < 100.0 {
      var n := ((100.0 - progress) * 2.0).Floor;
      var s := NatToString(n);
      if progress > 99.5 {
        assert n == 0;
      } else {
        assert n >= 1;
      }
    }
  }

  predicate Moving(f: FlightStatus) {
    f.status == InFlight && f.progress < 100.0
  }

  /** One flight's update on a refresh. */
  function UpdateFlight(f: FlightStatus, d: Draw): (r: FlightStatus)
    requires ValidDraw(d)
    ensures !Moving(f) ==> r == f
    ensures Moving(f) ==> f.progress <= r.progress <= 100.0
    ensures Moving(f) && f.progress + d.progressStep < 100.0 ==> r.progress == f.progress + d.progressStep
    ensures Moving(f) && f.progress + d.progressStep >= 100.0 ==> r.progress == 100.0
    ensures Moving(f) ==> r.altitude.Some? && r.altitude.value >= 0.0
    ensures Moving(f) ==> r.speed.Some? && r.speed.value >= 0.0
    ensures Moving(f) ==> r.altitude == Nudge(f.altitude, d.altitudeDelta) && r.speed == Nudge(f.speed, d.speedDelta)
    ensures Moving(f) ==> r.remainingTime == Some(RemainingTime(r.progress))
    ensures r == f.(progress := r.progress, altitude := r.altitude, speed := r.speed, remainingTime := r.remainingTime)
  {
    if Moving(f) then
      var newProgress := Min(f.progress + d.progressStep, 100.0);
      f.(progress := newProgress,
         altitude := Nudge(f.altitude, d.altitudeDelta),
         speed := Nudge(f.speed, d.speedDelta),
         remainingTime := Some(RemainingTime(newProgress)))
    else f
  }

  /** One auto-refresh tick over the whole list; draw `i` belongs to
      flight `i`. */
  function Tick(flights: seq<FlightStatus>, draws: seq<Draw>): (r: seq<FlightStatus>)
    requires |draws| == |flights|
    requires forall i :: 0 <= i < |draws| ==> ValidDraw(draws[i])
    ensures |r| == |flights|
    ensures forall i :: 0 <= i < |r| ==> r[i] == UpdateFlight(flights[i], draws[i])
    ensures forall i :: 0 <= i < |r| ==> r[i].id == flights[i].id && r[i].status == flights[i].status
    ensures forall i :: 0 <= i < |r| && !Moving(flights[i]) ==> r[i] == flights[i]
    ensures forall i :: 0 <= i < |r| ==> flights[i].progress <= r[i].progress
    ensures forall i :: 0 <= i < |r| && Moving(flights[i]) ==> r[i].progress <= 100.0
    decreases |flights|
  {
    if flights == [] then []
    else [UpdateFlight(flights[0], draws[0])] + Tick(flights[1..], draws[1..])
  }

  /** Progress stays a percentage: if every flight's progress is in
      [0, 100] before a tick, it is after. */
  lemma TickKeepsProgressInRange(flights: seq<FlightStatus>, draws: seq<Draw>)
    requires |draws| == |flights|
    requires forall i :: 0 <= i < |draws| ==> ValidDraw(draws[i])
    requires forall i :: 0 <= i < |flights| ==> 0.0 <= flights[i].progress <= 100.0
    ensures var r := Tick(flights, draws);
            forall i :: 0 <= i < |r| ==> 0.0 <= r[i].progress <= 100.0
  {
  }

  /** Once a flight reaches 100 it stops being updated. */
  lemma CompletedFlightIsFrozen(f: FlightStatus, d: Draw, d': Draw)
    requires ValidDraw(d) && ValidDraw(d')
    requires UpdateFlight(f, d).progress >= 100.0
    ensures UpdateFlight(UpdateFlight(f, d), d') == UpdateFlight(f, d)
    ensures UpdateFlight(f, d).remainingTime == Some("0m") || !Moving(f)
  {
  }
}

=== FILE: map_view.dfy ===
/** The map's city lookup: a fixed table from place names to coordinates,
    with the centre of the USA as the fallback. */
module MapView {

  datatype LatLng = LatLng(lat: real, lng: real)

  /** The map's default centre, which is also the lookup's fallback. */
  const DefaultCenter: LatLng := LatLng(39.8283, -98.5795)

  const CityCoordinates: map<string, LatLng> := map[
    "New York, NY" := LatLng(40.7128, -74.0060),
    "Los Angeles, CA" := LatLng(34.0522, -118.2437),
    "Chicago, IL" := LatLng(41.8781, -87.6298),
    "Boston, MA" := LatLng(42.3601, -71.0589),
    "Miami, FL" := LatLng(25.7617, -80.1918),
    "Seattle, WA" := LatLng(47.6062, -122.3321),
    "NYC" := LatLng(40.7128, -74.0060),
    "LAX" := LatLng(34.0522, -118.2437),
    "ORD" := LatLng(41.8781, -87.6298),
    "MIA" := LatLng(25.7617, -80.1918)
  ]

  /** A known name gives its table entry; anything else the default. */
  function GetCityCoordinates(cityName: string): (r: LatLng)
    ensures cityName in CityCoordinates ==> r == CityCoordinates[cityName]
    ensures cityName !in CityCoordinates ==> r == DefaultCenter
    ensures r in CityCoordinates.Values || r == DefaultCenter
  {
    if cityName in CityCoordinates then CityCoordinates[cityName] else DefaultCenter
  }

  /** The four airport codes resolve to the same place as their cities. */
  lemma AirportCodesAliasCities()
    ensures GetCityCoordinates("NYC") == GetCityCoordinates("New York, NY")
    ensures GetCityCoordinates("LAX") == GetCityCoordinates("Los Angeles, CA")
    ensures GetCityCoordinates("ORD") == GetCityCoordinates("Chicago, IL")
    ensures GetCityCoordinates("MIA") == GetCityCoordinates("Miami, FL")
  {
  }

  /** The fallback is distinguishable: no table entry lies at the default
      centre, so a result equal to it means the name was not found. */
  lemma DefaultMeansUnknown(cityName: string)
    ensures GetCityCoordinates(cityName) == DefaultCenter <==> cityName !in CityCoordinates
  {
    if cityName in CityCoordinates {
      assert CityCoordinates[cityName].lat != 39.8283;
    }
  }

  /** Names outside the table, however close to one inside it, fall back:
      the lookup is exact and case-sensitive. */
  lemma LookupIsExact()
    ensures GetCityCoordinates("new york, ny") == DefaultCenter
    ensures GetCityCoordinates("New York") == DefaultCenter
  {
  }
}

=== FILE: maybe.dfy ===
/** An optional value: the model's stand-in for a field that may be
    `undefined` or `null`. */
module Maybe {

  datatype Option<+T> = None | Some(value: T) {

    /** The held value, or `default` when there is none. */
    function GetOr(default: T): T {
      match this
      case Some(v) => v
      case None => default
    }
  }
}

=== FILE: seqs.dfy ===
/** List operations the components share: `Array.prototype.filter` and the
    notion of an order-preserving sub-list. */
module Seqs {

  /** `a` can be obtained from `b` by deleting elements, keeping the order
      of the rest. */
  predicate SubsequenceOf<T(==)>(a: seq<T>, b: seq<T>)
    decreases |b|
  {
    if a == [] then true
    else if b == [] then false
    else if a[0] == b[0] then SubsequenceOf(a[1..], b[1..])
    else SubsequenceOf(a, b[1..])
  }

  /** `s.filter(p)`: the elements of `s` that satisfy `p`, in their original
      order, each occurrence kept or dropped on its own. */
  function Filter<T(!new)>(p: T -> bool, s: seq<T>): (r: seq<T>)
    ensures |r| <= |s|
    ensures forall x :: x in r <==> x in s && p(x)
    ensures SubsequenceOf(r, s)
    decreases |s|
  {
    if s == [] then []
    else
      var rest := Filter(p, s[1..]);
      assert s == [s[0]] + s[1..];
      if p(s[0]) then
        var r := [s[0]] + rest;
        assert r[1..] == rest;
        r
      else
        rest
  }

  /** Filtering distributes over concatenation. */
  lemma {:induction false} FilterAppend<T(!new)>(p: T -> bool, a: seq<T>, b: seq<T>)
    ensures Filter(p, a + b) == Filter(p, a) + Filter(p, b)
    decreases |a|
  {
    if a == [] {
      assert a + b == b;
    } else {
      var ab := a + b;
      assert ab[0] == a[0];
      assert ab[1..] == a[1..] + b;
      FilterAppend(p, a[1..], b);
      if p(a[0]) {
        calc {
          Filter(p, ab);
          [a[0]] + Filter(p, a[1..] + b);
          [a[0]] + (Filter(p, a[1..]) + Filter(p, b));
          ([a[0]] + Filter(p, a[1..])) + Filter(p, b);
        }
      }
    }
  }

  /** Each occurrence is kept or dropped on its own: the filter keeps every
      copy of a matching value and no copy of any other. */
  lemma {:induction false} FilterMultiplicity<T(!new)>(p: T -> bool, s: seq<T>, x: T)
    ensures multiset(Filter(p, s))[x] == if p(x) then multiset(s)[x] else 0
    decreases |s|
  {
    if s != [] {
      assert s == [s[0]] + s[1..];
      FilterMultiplicity(p, s[1..], x);
    }
  }

  /** A filter whose predicate holds everywhere returns its input. */
  lemma {:induction false} FilterAll<T(!new)>(p: T -> bool, s: seq<T>)
    requires forall i :: 0 <= i < |s| ==> p(s[i])
    ensures Filter(p, s) == s
    decreases |s|
  {
    if s != [] {
      FilterAll(p, s[1..]);
    }
  }
}

=== FILE: session.dfy ===
/** The session store: at most one signed-in user, a loading flag, and the
    simulated login, register and logout operations. Each asynchronous
    call is split into the step that starts it and the step that resumes
    it after the simulated delay; the delay itself is not modelled. */
module UserSession {
  import opened Maybe

  datatype User = User(id: string, name: string, email: string, avatar: Option<string>)

  /** A login or register call, with the arguments it was made with. */
  datatype Call =
    | Login(email: string, password: string)
    | Register(name: string, email: string, password: string)

  /** `pending` is the call suspended in its delay, if any. */
  datatype Session = Session(user: Option<User>, isLoading: bool, pending: Option<Call>)

  const InitialSession: Session := Session(None, false, None)

  /** The stub identity every login returns. */
  const DemoUserId: string := "1"
  const DemoUserName: string := "Kalu Iroegbu"
  const DemoAvatar: string :=
    "https://images.pexels.com/photos/1222271/pexels-photo-1222271.jpeg?auto=compress&cs=tinysrgb&w=150"

  /** The user a completed call signs in: a login always yields the demo
      user under the given email; a register uses the given name. */
  function SignedInUser(call: Call): (u: User)
    ensures u.id == DemoUserId && u.email == call.email && u.avatar == Some(DemoAvatar)
    ensures call.Login? ==> u.name == DemoUserName
    ensures call.Register? ==> u.name == call.name
  {
    match call
    case Login(email, _) => User(DemoUserId, DemoUserName, email, Some(DemoAvatar))
    case Register(name, email, _) => User(DemoUserId, name, email, Some(DemoAvatar))
  }

  /** The loading flag is up exactly while a call is suspended. */
  predicate Valid(s: Session) {
    s.isLoading <==> s.pending.Some?
  }

  lemma InitialSessionIsAnonymous()
    ensures Valid(InitialSession)
    ensures InitialSession.user.None? && !InitialSession.isLoading
  {
  }

  /** Starting a call raises the loading flag; the user is untouched until
      the call resumes. Overlapping calls are not modelled. */
  function Begin(s: Session, call: Call): (r: Session)
    requires s.pending.None?
    ensures Valid(r) && r.isLoading
    ensures r.user == s.user && r.pending == Some(call)
  {
    Session(s.user, true, Some(call))
  }

  /** Resuming the suspended call after its delay. When it completes it
      overwrites whatever user was signed in; when it throws the user stays
      as it was. Either way the loading flag drops (the `finally` block). */
  function Finish(s: Session, completes: bool): (r: Session)
    requires s.pending.Some?
    ensures Valid(r) && !r.isLoading
    ensures completes ==> r.user == Some(SignedInUser(s.pending.value))
    ensures !completes ==> r.user == s.user
  {
    var user := if completes then Some(SignedInUser(s.pending.value)) else s.user;
    Session(user, false, None)
  }

  /** Signing out: clears the user at once, leaves any call in flight. */
  function Logout(s: Session): (r: Session)
    ensures r.user.None?
    ensures r.isLoading == s.isLoading && r.pending == s.pending
  {
    s.(user := None)
  }

  lemma LogoutIdempotent(s: Session)
    ensures Logout(Logout(s)) == Logout(s)
  {
  }

  /** Logging out with nobody signed in changes nothing. */
  lemma LogoutWhenAnonymousIsNoOp(s: Session)
    requires s.user.None?
    ensures Logout(s) == s
  {
  }

  /** A completed login signs in the demo user under the given email,
      whatever the password. */
  lemma LoginIgnoresPassword(s: Session, email: string, p1: string, p2: string, completes: bool)
    requires s.pending.None?
    ensures Finish(Begin(s, Login(email, p1)), completes) == Finish(Begin(s, Login(email, p2)), completes)
    ensures completes ==>
      Finish(Begin(s, Login(email, p1)), completes).user == Some(User("1", "Kalu Iroegbu", email, Some(DemoAvatar)))
  {
  }

  /** A completed call replaces the user no matter who was signed in. */
  lemma CompletedCallOverwritesUser(s1: Session, s2: Session, call: Call)
    requires s1.pending.None? && s2.pending.None?
    ensures Finish(Begin(s1, call), true) == Finish(Begin(s2, call), true)
  {
  }

  /** Signing out while a login is still in its delay does not stick: the
      login resumes and signs the user in again. */
  lemma LogoutDuringLoginIsUndone(s: Session, call: Call)
    requires s.pending.None?
    ensures Finish(Logout(Begin(s, call)), true).user == Some(SignedInUser(call))
  {
  }

  /** The session operations keep the loading flag in step with the
      suspended call. */
  lemma OperationsKeepValid(s: Session, call: Call, completes: bool)
    requires Valid(s)
    ensures !s.isLoading ==> Valid(Begin(s, call))
    ensures s.isLoading ==> Valid(Finish(s, completes))
    ensures Valid(Logout(s))
  {
  }
}

=== FILE: shopping_cart.dfy ===
/** The shopping cart panel: the item list with quantity controls, and the
    three-step checkout it opens into. The cart store behind it is not part
    of this model: the panel only issues requests to it, of which only
    "clear" has a known effect (the cart becomes empty). */
module ShoppingCart {
  import opened Maybe

  /** A line of the cart as the panel reads it. */
  datatype CartItem = CartItem(id: string, title: string, price: real, originalPrice: Option<real>, quantity: int)

  /** What the panel asks of the cart store. */
  datatype CartRequest = UpdateQuantity(id: string, quantity: int) | RemoveFromCart(id: string) | ClearCart

  /** The effect of the requests whose meaning is known: clearing empties
      the cart. Other requests are left to the store. */
  predicate Cleared(requests: seq<CartRequest>) {
    ClearCart in requests
  }

  /** The line subtotal shown in the order summary: the unit price once
      per unit. */
  function LineSubtotal(item: CartItem): (subtotal: real)
    ensures item.quantity == 0 ==> subtotal == 0.0
    ensures item.quantity == 1 ==> subtotal == item.price
    ensures item.price >= 0.0 && item.quantity >= 0 ==> subtotal >= 0.0
  {
    item.price * item.quantity as real
  }

  /** The line an accepted quantity request would leave in the cart. */
  function Requested(item: CartItem, r: CartRequest): CartItem
    requires r.UpdateQuantity?
  {
    item.(quantity := r.quantity)
  }

  /** `mounted` turns false when the panel calls `onClose`; the parent then
      unmounts it and its local state is gone. */
  datatype Panel = Panel(mounted: bool, showCheckout: bool, step: int)

  const InitialPanel: Panel := Panel(true, false, 1)

  datatype PanelEvent =
    | Decrease(item: CartItem)     // the minus button of a line
    | Increase(item: CartItem)     // the plus button of a line
    | Remove(item: CartItem)       // the bin button of a line
    | ClearAll                     // "Clear Cart"
    | ProceedToCheckout            // "Proceed to Checkout"
    | LeaveCheckout                // the checkout overlay's X
    | SubmitCheckout               // the checkout form's submit, drawn below step 3
    | BackStep                     // "Back", drawn only at step 2
    | CloseAfterOrder              // "Close", drawn at step 3
    | ClosePanel                   // the panel's X

  datatype Outcome = Outcome(panel: Panel, requests: seq<CartRequest>)

  /** The panel's response to one event, given the cart it is showing. Each
      button acts only when it is drawn. */
  function PanelStep(p: Panel, cart: seq<CartItem>, e: PanelEvent): (r: Outcome)
    ensures 1 <= p.step <= 3 ==> 1 <= r.panel.step <= 3
    ensures !p.mounted ==> r == Outcome(p, [])
  {
    if !p.mounted then Outcome(p, [])
    else if !p.showCheckout then
      match e
      case Decrease(item) =>
        if item in cart then Outcome(p, [UpdateQuantity(item.id, item.quantity - 1)]) else Outcome(p, [])
      case Increase(item) =>
        if item in cart then Outcome(p, [UpdateQuantity(item.id, item.quantity + 1)]) else Outcome(p, [])
      case Remove(item) =>
        if item in cart then Outcome(p, [RemoveFromCart(item.id)]) else Outcome(p, [])
      case ClearAll =>
        if cart != [] then Outcome(p, [ClearCart]) else Outcome(p, [])
      case ProceedToCheckout =>
        if cart != [] then Outcome(p.(showCheckout := true), []) else Outcome(p, [])
      case ClosePanel => Outcome(p.(mounted := false), [])
      case _ => Outcome(p, [])
    else
      match e
      case LeaveCheckout => Outcome(p.(showCheckout := false), [])
      case SubmitCheckout =>
        if p.step < 3 then Outcome(p.(step := p.step + 1), []) else Outcome(p, [])
      case BackStep =>
        if 1 < p.step < 3 then Outcome(p.(step := p.step - 1), []) else Outcome(p, [])
      case CloseAfterOrder =>
        if p.step == 3 then Outcome(p.(mounted := false), [ClearCart]) else Outcome(p, [])
      case _ => Outcome(p, [])
  }

  /** Submitting before the last step moves on exactly one step and leaves
      the cart alone. */
  lemma SubmitAdvancesOneStep(p: Panel, cart: seq<CartItem>)
    requires p.mounted && p.showCheckout && 1 <= p.step < 3
    ensures PanelStep(p, cart, SubmitCheckout) == Outcome(p.(step := p.step + 1), [])
  {
  }

  /** An order is finished by the Close button at step 3, which clears the
      cart and closes the panel. Step 3 draws no submit button, so a submit
      there does nothing. */
  lemma FinishingClearsAndCloses(p: Panel, cart: seq<CartItem>)
    requires p.mounted && p.showCheckout && p.step == 3
    ensures var r := PanelStep(p, cart, CloseAfterOrder);
            Cleared(r.requests) && !r.panel.mounted
    ensures PanelStep(p, cart, SubmitCheckout) == Outcome(p, [])
  {
  }

  /** The cart is cleared only by "Clear Cart" or by closing a finished
      order. */
  lemma OnlyClearOrFinishClears(p: Panel, cart: seq<CartItem>, e: PanelEvent)
    requires 1 <= p.step <= 3
    requires Cleared(PanelStep(p, cart, e).requests)
    ensures e == ClearAll || (p.step == 3 && e == CloseAfterOrder)
  {
  }

  /** Back works only at step 2 and returns to step 1. */
  lemma BackOnlyFromStepTwo(p: Panel, cart: seq<CartItem>)
    requires 1 <= p.step <= 3
    ensures var r := PanelStep(p, cart, BackStep);
            r.requests == [] &&
            (r.panel.step != p.step ==> p.step == 2 && r.panel.step == 1)
  {
  }

  /** Leaving the checkout overlay keeps the step, so opening it again
      resumes where it was. */
  lemma LeaveAndReturnResumes(p: Panel, cart: seq<CartItem>)
    requires p.mounted && p.showCheckout && cart != []
    ensures var left := PanelStep(p, cart, LeaveCheckout).panel;
            PanelStep(left, cart, ProceedToCheckout).panel == p
  {
  }

  /** The minus and plus buttons ask for one less and one more of the same
      item. */
  lemma QuantityButtons(p: Panel, cart: seq<CartItem>, item: CartItem)
    requires p.mounted && !p.showCheckout && item in cart
    ensures PanelStep(p, cart, Decrease(item)).requests == [UpdateQuantity(item.id, item.quantity - 1)]
    ensures PanelStep(p, cart, Increase(item)).requests == [UpdateQuantity(item.id, item.quantity + 1)]
    ensures PanelStep(p, cart, Decrease(item)).panel == p == PanelStep(p, cart, Increase(item)).panel
  {
  }

  /** The plus button asks for a quantity whose line costs one unit price
      more, the minus button for one that costs one unit price less. */
  lemma LineSubtotalPerUnit(p: Panel, cart: seq<CartItem>, item: CartItem)
    requires p.mounted && !p.showCheckout && item in cart
    ensures var up := PanelStep(p, cart, Increase(item)).requests;
            |up| == 1 && up[0].UpdateQuantity? && up[0].id == item.id &&
            LineSubtotal(Requested(item, up[0])) == LineSubtotal(item) + item.price
    ensures var down := PanelStep(p, cart, Decrease(item)).requests;
            |down| == 1 && down[0].UpdateQuantity? && down[0].id == item.id &&
            LineSubtotal(Requested(item, down[0])) == LineSubtotal(item) - item.price
  {
    QuantityButtons(p, cart, item);
    var q := item.quantity as real;
    assert item.price * (q + 1.0) == item.price * q + item.price;
    assert item.price * (q - 1.0) == item.price * q - item.price;
  }

  /** A run of events against carts the store reports before each one. */
  function RunPanel(p: Panel, carts: seq<seq<CartItem>>, events: seq<PanelEvent>): Panel
    requires |carts| == |events|
    decreases |events|
  {
    if events == [] then p else RunPanel(PanelStep(p, carts[0], events[0]).panel, carts[1..], events[1..])
  }

  /** From any step in 1..3, the checkout step stays within 1..3. */
  lemma {:induction false} PanelStepAlwaysInRange(p: Panel, carts: seq<seq<CartItem>>, events: seq<PanelEvent>)
    requires |carts| == |events|
    requires 1 <= p.step <= 3
    ensures 1 <= RunPanel(p, carts, events).step <= 3
    decreases |events|
  {
    if events != [] {
      PanelStepAlwaysInRange(PanelStep(p, carts[0], events[0]).panel, carts[1..], events[1..]);
    }
  }

  /** The panel opens at step 1, so over any run of events its checkout
      step stays within 1..3. */
  lemma FreshPanelStaysInRange(carts: seq<seq<CartItem>>, events: seq<PanelEvent>)
    requires |carts| == |events|
    ensures 1 <= RunPanel(InitialPanel, carts, events).step <= 3
  {
    PanelStepAlwaysInRange(InitialPanel, carts, events);
  }
}

=== FILE: text.dfy ===
/** String helpers shared by the search boxes and the generated labels:
    ASCII lower-casing, substring search and decimal rendering of numbers. */
module Text {

  /** Lower-cases one ASCII letter; every other character is left alone.
      (Unicode case mapping is not modelled.) */
  function LowerChar(c: char): char {
    if 'A' <= c <= 'Z' then (c as int + 32) as char else c
  }

  /** `s.toLowerCase()` over ASCII. */
  function Lower(s: string): (r: string)
    ensures |r| == |s|
    ensures forall i :: 0 <= i < |s| ==> r[i] == LowerChar(s[i])
  {
    seq(|s|, i requires 0 <= i < |s| => LowerChar(s[i]))
  }

  /** `needle` occurs in `hay` starting at position `k`. */
  ghost predicate OccursAt(hay: string, needle: string, k: int) {
    0 <= k <= |hay| - |needle| && hay[k..k + |needle|] == needle
  }

  /** `needle` occurs as a contiguous block of `hay`. */
  ghost predicate Occurs(hay: string, needle: string) {
    exists k :: OccursAt(hay, needle, k)
  }

  /** `hay.includes(needle)`. */
  function Includes(hay: string, needle: string): (b: bool)
    ensures b <==> Occurs(hay, needle)
    decreases |hay|
  {
    if |needle| > |hay| then false
    else if needle <= hay then
      assert OccursAt(hay, needle, 0);
      true
    else
      var rest := Includes(hay[1..], needle);
      assert rest ==> Occurs(hay, needle) by {
        if rest {
          var k :| OccursAt(hay[1..], needle, k);
          assert hay[k + 1..k + 1 + |needle|] == needle;
          assert OccursAt(hay, needle, k + 1);
        }
      }
      assert Occurs(hay, needle) ==> rest by {
        if Occurs(hay, needle) {
          var k :| OccursAt(hay, needle, k);
          assert k > 0;
          assert hay[1..][k - 1..k - 1 + |needle|] == needle;
          assert OccursAt(hay[1..], needle, k - 1);
        }
      }
      rest
  }

  /** Every string includes the empty string. */
  lemma IncludesEmpty(hay: string)
    ensures Includes(hay, "")
  {
    assert OccursAt(hay, "", 0);
  }

  /** `term` occurs in `hay` at position `k` once letter case is ignored:
      each character agrees with the one it lies over up to case. */
  ghost predicate OccursIgnoringCaseAt(hay: string, term: string, k: int) {
    && 0 <= k <= |hay| - |term|
    && forall i :: 0 <= i < |term| ==> LowerChar(hay[k + i]) == LowerChar(term[i])
  }

  /** JavaScript's case-insensitive search idiom,
      `hay.toLowerCase().includes(term.toLowerCase())`. */
  function IncludesIgnoringCase(hay: string, term: string): (b: bool)
    ensures b <==> exists k :: OccursIgnoringCaseAt(hay, term, k)
  {
    var lh, lt := Lower(hay), Lower(term);
    forall k | 0 <= k <= |hay| - |term|
      ensures OccursAt(lh, lt, k) <==> OccursIgnoringCaseAt(hay, term, k)
    {
      if OccursAt(lh, lt, k) {
        forall i | 0 <= i < |term|
          ensures LowerChar(hay[k + i]) == LowerChar(term[i])
        {
          assert lh[k..k + |lt|][i] == lt[i];
        }
      }
      if OccursIgnoringCaseAt(hay, term, k) {
        assert lh[k..k + |lt|] == lt;
      }
    }
    Includes(lh, lt)
  }

  lemma IncludesIgnoringCaseEmpty(hay: string)
    ensures IncludesIgnoringCase(hay, "")
  {
    IncludesEmpty(Lower(hay));
  }

  predicate IsDigit(c: char) {
    '0' <= c <= '9'
  }

  function DigitChar(d: nat): (c: char)
    requires d < 10
    ensures IsDigit(c)
  {
    ('0' as int + d) as char
  }

  function DigitValue(c: char): (d: nat)
    requires IsDigit(c)
    ensures d < 10
  {
    c as int - '0' as int
  }

  predicate AllDigits(s: string) {
    forall i :: 0 <= i < |s| ==> IsDigit(s[i])
  }

  /** `n.toString()` for a natural number: decimal, no leading zeros. */
  function NatToString(n: nat): (s: string)
    ensures |s| >= 1
    ensures AllDigits(s)
    ensures s[0] == '0' ==> n == 0
    decreases n
  {
    if n < 10 then [DigitChar(n)]
    else NatToString(n / 10) + [DigitChar(n % 10)]
  }

  /** Reads a string of decimal digits back as a number. */
  function ParseNat(s: string): nat
    requires AllDigits(s)
  {
    if s == [] then 0
    else ParseNat(s[..|s| - 1]) * 10 + DigitValue(s[|s| - 1])
  }

  /** Rendering a number in decimal loses nothing. */
  lemma {:induction false} ParseNatToString(n: nat)
    ensures ParseNat(NatToString(n)) == n
    decreases n
  {
    var s := NatToString(n);
    if n >= 10 {
      assert s[..|s| - 1] == NatToString(n / 10);
      ParseNatToString(n / 10);
    }
  }

  /** Distinct numbers render as distinct strings. */
  lemma NatToStringInjective(m: nat, n: nat)
    ensures NatToString(m) == NatToString(n) ==> m == n
  {
    ParseNatToString(m);
    ParseNatToString(n);
  }
}

=== FILE: travel_insurance.dfy ===
/** Travel insurance: the three-step purchase wizard, its price total, and
    filing a claim, which appends a numbered claim to the list. */
module TravelInsurance {
  import opened Maybe
  import opened Text

  datatype PolicyType = Basic | Standard | Premium

  datatype Coverage = Coverage(medical: int, tripCancellation: int, baggage: int, flightDelay: int, emergency: int)

  datatype InsurancePolicy = InsurancePolicy(
    id: string,
    name: string,
    policyType: PolicyType,
    price: real,
    duration: string,
    coverage: Coverage,
    features: seq<string>,
    popular: Option<bool>)

  // ---------------------------------------------------------------------
  // Purchase wizard

  datatype TravelDetails = TravelDetails(
    destination: string,
    departureDate: string,
    returnDate: string,
    travelers: int,
    tripCost: int)

  const InitialTravelDetails: TravelDetails := TravelDetails("", "", "", 1, 0)

  /** The entries of the "Number of Travelers" select. */
  const TravelerOptions: seq<int> := [1, 2, 3, 4, 5, 6]

  /** Picking entry `k` of the travelers select. */
  function ChooseTravelers(details: TravelDetails, k: nat): (r: TravelDetails)
    requires k < |TravelerOptions|
    ensures 1 <= r.travelers <= 6
    ensures r == details.(travelers := r.travelers)
  {
    details.(travelers := TravelerOptions[k])
  }

  /** The "Total" line on the review step: the policy price once per
      traveler. */
  function PurchaseTotal(policy: InsurancePolicy, details: TravelDetails): (total: real)
    ensures details.travelers == 1 ==> total == policy.price
    ensures policy.price >= 0.0 && details.travelers >= 1 ==> total >= policy.price
  {
    policy.price * details.travelers as real
  }

  /** The total starts at the policy price and each extra traveler adds the
      price once more; with a chosen traveler count it lies between one and
      six times the price. */
  lemma PurchaseTotalPerTraveler(policy: InsurancePolicy, details: TravelDetails, k: nat)
    requires k < |TravelerOptions|
    requires policy.price >= 0.0
    ensures PurchaseTotal(policy, InitialTravelDetails) == policy.price
    ensures PurchaseTotal(policy, details.(travelers := details.travelers + 1)) ==
            PurchaseTotal(policy, details) + policy.price
    ensures policy.price <= PurchaseTotal(policy, ChooseTravelers(details, k)) <= 6.0 * policy.price
  {
    var n := ChooseTravelers(details, k).travelers as real;
    assert policy.price * 1.0 <= policy.price * n <= policy.price * 6.0;
  }

  datatype Wizard = Wizard(selected: Option<InsurancePolicy>, open: bool, step: int)

  const InitialWizard: Wizard := Wizard(None, false, 1)

  datatype WizardEvent =
    | Purchase(policy: InsurancePolicy)  // a policy card's purchase button
    | Submit                             // Continue / Review & Pay / Complete Purchase
    | Back                               // shown only after step 1
    | CloseModal                         // the modal's X

  predicate StepInRange(w: Wizard) {
    1 <= w.step <= 3
  }

  function WizardStep(w: Wizard, e: WizardEvent): (r: Wizard)
    ensures StepInRange(w) ==> StepInRange(r)
  {
    match e
    case Purchase(p) => Wizard(Some(p), true, 1)
    case Submit =>
      if !(w.open && w.selected.Some?) then w
      else if w.step < 3 then w.(step := w.step + 1)
      else w.(open := false, step := 1)
    case Back =>
      if w.open && w.selected.Some? && w.step > 1 then w.(step := w.step - 1) else w
    case CloseModal => w.(open := false)
  }

  function RunWizard(w: Wizard, events: seq<WizardEvent>): Wizard
    decreases |events|
  {
    if events == [] then w else RunWizard(WizardStep(w, events[0]), events[1..])
  }

  /** From any step in 1..3, the step never leaves 1..3. */
  lemma {:induction false} WizardStepAlwaysInRange(w: Wizard, events: seq<WizardEvent>)
    requires StepInRange(w)
    ensures StepInRange(RunWizard(w, events))
    decreases |events|
  {
    if events != [] {
      WizardStepAlwaysInRange(WizardStep(w, events[0]), events[1..]);
    }
  }

  /** The page starts with the wizard closed at step 1, so over any run of
      events its step stays within 1..3. */
  lemma FreshWizardStaysInRange(events: seq<WizardEvent>)
    ensures StepInRange(RunWizard(InitialWizard, events))
  {
    WizardStepAlwaysInRange(InitialWizard, events);
  }

  /** Choosing a policy restarts the wizard at step 1, open, whatever state
      it was left in. */
  lemma PurchaseRestartsWizard(w: Wizard, p: InsurancePolicy)
    ensures WizardStep(w, Purchase(p)) == Wizard(Some(p), true, 1)
  {
  }

  /** Three submits after choosing a policy complete the purchase: the
      modal closes and the step is back at 1. */
  lemma ThreeSubmitsComplete(w: Wizard, p: InsurancePolicy)
    ensures RunWizard(w, [Purchase(p), Submit, Submit]) == Wizard(Some(p), true, 3)
    ensures RunWizard(w, [Purchase(p), Submit, Submit, Submit]) == Wizard(Some(p), false, 1)
  {
    var three := [Purchase(p), Submit, Submit];
    var four := [Purchase(p), Submit, Submit, Submit];
    var w1, w2, w3 := Wizard(Some(p), true, 1), Wizard(Some(p), true, 2), Wizard(Some(p), true, 3);
    assert three[1..] == [Submit, Submit] && four[1..] == [Submit, Submit, Submit];
    assert RunWizard(w3, [Submit]) == Wizard(Some(p), false, 1);
    assert RunWizard(w2, [Submit]) == w3;
    assert RunWizard(w2, [Submit, Submit]) == RunWizard(w3, [Submit]);
    assert RunWizard(w1, [Submit, Submit]) == RunWizard(w2, [Submit]);
    assert RunWizard(w1, [Submit, Submit, Submit]) == RunWizard(w2, [Submit, Submit]);
  }

  /** Back undoes a submit that advanced the step. */
  lemma BackUndoesSubmit(w: Wizard)
    requires w.open && w.selected.Some? && 1 <= w.step < 3
    ensures WizardStep(WizardStep(w, Submit), Back) == w
  {
  }

  // ---------------------------------------------------------------------
  // Claims

  datatype ClaimStatus = Pending | Approved | Rejected | Processing

  datatype Claim = Claim(
    id: string,
    policyNumber: string,
    claimType: string,
    amount: int,
    status: ClaimStatus,
    dateSubmitted: string,
    description: string,
    documents: seq<string>)

  datatype ClaimForm = ClaimForm(claimType: string, amount: int, description: string, incidentDate: string)

  const EmptyClaimForm: ClaimForm := ClaimForm("", 0, "", "")

  const PolicyPrefix: string := "TI-2024-00"

  /** The policy number filed with a claim: the fixed prefix, then the
      serial in decimal, which reads back as the serial. */
  function PolicyNumber(serial: nat): (s: string)
    ensures |s| > |PolicyPrefix| && s[..|PolicyPrefix|] == PolicyPrefix
    ensures AllDigits(s[|PolicyPrefix|..]) && ParseNat(s[|PolicyPrefix|..]) == serial
    ensures s[|PolicyPrefix|] == '0' ==> serial == 0
  {
    var digits := NatToString(serial);
    assert (PolicyPrefix + digits)[|PolicyPrefix|..] == digits;
    ParseNatToString(serial);
    PolicyPrefix + digits
  }

  /** The claims list a submission grew, the claim form after it, and
      whether the claim modal is still open. */
  datatype Filing = Filing(claims: seq<Claim>, form: ClaimForm, modalOpen: bool)

  /** Submitting the claim form. `today` is the submission date
      (`new Date()` is outside the model). */
  function FileClaim(claims: seq<Claim>, form: ClaimForm, today: string): (r: Filing)
    ensures |r.claims| == |claims| + 1
    ensures r.claims[..|claims|] == claims
    ensures var c := r.claims[|claims|];
            && c.id == NatToString(|claims| + 1)
            && c.policyNumber == PolicyNumber(1237 + |claims|)
            && c.status == Pending && c.documents == []
            && c.claimType == form.claimType && c.amount == form.amount && c.description == form.description
            && c.dateSubmitted == today
    ensures r.form == EmptyClaimForm
    ensures !r.modalOpen
  {
    var claim := Claim(
      NatToString(|claims| + 1),
      PolicyNumber(1237 + |claims|),
      form.claimType,
      form.amount,
      Pending,
      today,
      form.description,
      []);
    Filing(claims + [claim], EmptyClaimForm, false)
  }

  const MockClaims: seq<Claim> := [
    Claim("1", "TI-2024-001234", "Medical Emergency", 2500, Approved, "2024-01-10",
      "Emergency medical treatment in Paris", ["medical_report.pdf", "receipts.pdf"]),
    Claim("2", "TI-2024-001235", "Flight Delay", 800, Processing, "2024-01-15",
      "12-hour flight delay due to weather", ["flight_confirmation.pdf", "delay_certificate.pdf"]),
    Claim("3", "TI-2024-001236", "Lost Baggage", 1200, Pending, "2024-01-20",
      "Baggage lost during connection in London", ["baggage_report.pdf", "item_list.pdf"])
  ]

  /** The serial in the policy number of the claim at position `i`: the
      three seed claims carry 1234..1236, a claim filed when the list had
      `i` entries carries 1237 + i. */
  function SerialAt(i: nat): nat {
    if i < 3 then 1234 + i else 1237 + i
  }

  /** Claim `i` has id `i + 1` and the policy number its position implies. */
  predicate WellNumbered(claims: seq<Claim>) {
    && |claims| >= 3
    && forall i :: 0 <= i < |claims| ==>
         claims[i].id == NatToString(i + 1) && claims[i].policyNumber == PolicyNumber(SerialAt(i))
  }

  lemma MockClaimsWellNumbered()
    ensures WellNumbered(MockClaims)
  {
    forall i | 0 <= i < |MockClaims|
      ensures MockClaims[i].id == NatToString(i + 1)
      ensures MockClaims[i].policyNumber == PolicyNumber(SerialAt(i))
    {
      SeedNumber(i);
    }
  }

  lemma SeedNumber(i: nat)
    requires i < 3
    ensures NatToString(i + 1) == [DigitChar(i + 1)]
    ensures PolicyNumber(SerialAt(i)) == PolicyPrefix + "123" + [DigitChar(4 + i)]
  {
    assert NatToString(123) == "123";
  }

  lemma FileClaimKeepsNumbering(claims: seq<Claim>, form: ClaimForm, today: string)
    requires WellNumbered(claims)
    ensures WellNumbered(FileClaim(claims, form, today).claims)
  {
    var r := FileClaim(claims, form, today).claims;
    forall i | 0 <= i < |r|
      ensures r[i].id == NatToString(i + 1) && r[i].policyNumber == PolicyNumber(SerialAt(i))
    {
      if i < |claims| {
        assert r[i] == r[..|claims|][i];
      }
    }
  }

  /** The claims list after filing each form in turn. */
  function FileAll(claims: seq<Claim>, filings: seq<(ClaimForm, string)>): seq<Claim>
    decreases |filings|
  {
    if filings == [] then claims
    else FileAll(FileClaim(claims, filings[0].0, filings[0].1).claims, filings[1..])
  }

  /** Starting from the seed claims, ids stay exactly "1".."n" and no two
      claims share an id or a policy number. */
  lemma ClaimIdsAndPolicyNumbersUnique(filings: seq<(ClaimForm, string)>)
    ensures var claims := FileAll(MockClaims, filings);
            && (forall i :: 0 <= i < |claims| ==> claims[i].id == NatToString(i + 1))
            && (forall i, j :: 0 <= i < j < |claims| ==> claims[i].id != claims[j].id)
            && (forall i, j :: 0 <= i < j < |claims| ==> claims[i].policyNumber != claims[j].policyNumber)
  {
    MockClaimsWellNumbered();
    FileAllKeepsNumbering(MockClaims, filings);
    var claims := FileAll(MockClaims, filings);
    forall i, j | 0 <= i < j < |claims|
      ensures claims[i].id != claims[j].id
      ensures claims[i].policyNumber != claims[j].policyNumber
    {
      NatToStringInjective(i + 1, j + 1);
    }
  }

  lemma {:induction false} FileAllKeepsNumbering(claims: seq<Claim>, filings: seq<(ClaimForm, string)>)
    requires WellNumbered(claims)
    ensures WellNumbered(FileAll(claims, filings))
    decreases |filings|
  {
    if filings != [] {
      FileClaimKeepsNumbering(claims, filings[0].0, filings[0].1);
      FileAllKeepsNumbering(FileClaim(claims, filings[0].0, filings[0].1).claims, filings[1..]);
    }
  }

  /** The first claim filed after the seeds is number 4 on policy
      TI-2024-001240: serials 1237..1239 are never issued. */
  lemma FirstFiledClaimNumbers(form: ClaimForm, today: string)
    ensures var c := FileClaim(MockClaims, form, today).claims[3];
            c.id == "4" && c.policyNumber == "TI-2024-001240"
  {
    assert NatToString(124) == "124";
    assert NatToString(1240) == "1240";
  }
}
